=== FILE: README.md ===
# pfrinc4 core, modelled in Dafny

pfrinc4 is a download manager. It groups links into named *packets*,
downloads each link with `curl`, extracts the archive with `unrar` by
trying a list of passwords, and sends status messages to the clients that
are connected to its info server. This project models the sequential core
of the manager and proves what it promises:

- `Packets` (packet.dfy) is the `pf_packet` state machine. It is a class
  with:
  - the link list, with no link twice;
  - the FIFO queue of links still to download;
  - the successful links and the count of processed links;
  - the lifecycle state (`none/wait/dl/dl-done/ex/fin/err/kill`), the
    message and the run flag.

  The download loop is the method `Download`, proved against the function
  `FetchAll`. `Reset` rebuilds the queue with a loop, proved against
  `Remaining`. The predicate `Coherent` ties the links, the queue, the
  successes and the count together, and every operation keeps it.
- `Info` (info.dfy) covers the info server's message side:
  - `_correct_msg`, as the method `CorrectMessage`, proved against the
    function `CorrectMsg`;
  - `put_msg` and `update_status` on a queue field and an `oldStatus`
    field. They keep every queued frame well formed: it ends in one blank
    line and holds no earlier blank line.
- `Unrar` (unrar.dfy) and `Curl` (curl.dfy) are the two progress readers.
  Each is a class whose `ReadLine` loop consumes the tool's output one
  character at a time. Each loop is proved against a function `Read`
  over the remaining output.
- `Extraction` (extractor.dfy) is the password fallback: passwords are
  tried in order until the first success.
- `Scan` (scan.dfy) covers:
  - the `findall` of `http://([^",^ ]+)` and the host filter of
    `scanlinks`;
  - the path rewrite of `_resolve_link`;
  - the filtering loop of `resolve_links`.
- `Text`, `Paths` and `Wrappers` are shared helpers. They hold `sep.join`,
  `"%d"` and `int()`, `os.path.join` and `os.path.split`, and `Option`.

The external programs are inputs. A download's outcome is a `Transfer`:
curl's return code, whether curl left the file, whether the file holds
the daily-limit notice, the last status report, and whether `kill` was
called meanwhile. An
extraction attempt's outcome is an `Attempt`. A progress reader's output
is a `stream` field, and an empty stream stands for the end of the output
(`''`).

## Model

| member | source | states |
|---|---|---|
| Text.NatToString | src/pfpacket.py:78-79 | `"%d"` renders a count as a non-empty run of decimal digits, with no leading zero except for 0 itself |
| Text.DigitsValueOfNatToString | src/pfpacket.py:78-79 | `int("%d" % n) == n`: parsing the rendering of a count gives the count back |
| Text.NatToStringInjective | src/pfpacket.py:78-79 | distinct counts show as distinct `files:` texts |
| Text.DigitsValueBound | src/curl.py:8 | a number written with k digits is below 10^k, so the 1-3 digit percentage group is below 1000 |
| Text.JoinEndsWithLast | src/pfpacket.py:95 | `", ".join(fields)` ends with the last field |
| Text.WithoutAppend | src/pfinfo.py:66-71 | removing a character from a concatenation removes it from each part |
| Paths.Join | src/pfscan.py:21 | `os.path.join`: an absolute second part replaces the first; otherwise the result starts with the first part and ends with the second, with one '/' between them exactly when the first part is non-empty and does not end in '/', and nothing between them otherwise |
| Paths.Split | src/pfscan.py:20 | `os.path.split`: the tail is everything after the last '/' (it holds no '/', ends the path, and a '/' stands right before it); a path without '/' is all tail |
| Paths.SplitHead | src/pfscan.py:20 | the head of a split is a prefix of the path, only slashes lie between head and tail, and the head ends in '/' only when it is all slashes; a part before the tail that is all slashes is kept whole as the head |
| Unrar.CommandFormat | src/unrar.py:57 | the argument list is `unrar -ierr e -o+ -p<pwd> <filepath>`, and the path and password can be read back from it, both directions |
| Unrar.SearchPercentFrom | src/unrar.py:6 | a match of `(\d+)%` ends just after a '%' that lies after the start of the search |
| Unrar.SearchPercentLeftmost | src/unrar.py:70 | `UNRAR_PERCENT.search` finds nothing exactly when no position holds digits followed by '%'; otherwise it returns the leftmost such match, its number being all the digits before the '%' |
| Unrar.SearchCapture | src/unrar.py:5-9 | a captured name is non-empty and made only of the pattern's name characters |
| Unrar.SearchCaptureNone | src/unrar.py:86-90 | the CRC, missing-volume and cannot-open searches find nothing exactly when no occurrence of the literal is followed by a name character |
| Unrar.SearchCaptureLeftmost | src/unrar.py:86-90 | otherwise the capture is the whole run of name characters behind the leftmost such occurrence |
| Unrar.ReadExtends | src/unrar.py:95-105 | reading never clears the success flag or a CRC, missing-volume or cannot-open capture |
| Unrar.ReadKeepsConsistent | src/unrar.py:107-115 | the message keeps following the captures by priority, cannot-open over missing-volume over CRC, and stays `extracting` while there is none |
| Unrar.ReadKeepsClean | src/unrar.py:65-77 | the line buffer never holds a '\r' or '\n' |
| Unrar.ReadWithoutEvent | src/unrar.py:62-79 | a read that returns False only appended the characters other than backspaces, and the status is unchanged |
| Unrar.ReadWithEvent | src/unrar.py:62-79 | a read that returns True stopped at the first character at which `_read_line` returns, given the line gathered before it (a line terminator, or a backspace after a percentage); the new state is that step's and the rest of the output follows it |
| Unrar.UnrarSpoon.constructor | src/unrar.py:39-58 | the argument list and working directory, message `extracting`, percent 0, success false, no captures, empty line |
| Unrar.UnrarSpoon.ReadChar | src/unrar.py:63 | takes the next character of the output, or closes the stream at its end |
| Unrar.UnrarSpoon.UpdateLine | src/unrar.py:84-115 | `_update_line`: the percentage, the sticky captures, the success flag and the message become `Updated` of the line |
| Unrar.UnrarSpoon.ReadLine | src/unrar.py:60-79 | the loop leaves the state, the rest of the output and the result that `Read` gives; on a closed stream it returns False and changes nothing |
| Unrar.UnrarSpoon.Update | src/unrar.py:81-82 | `_update` is one `ReadLine` whose result is dropped |
| Extraction.Extractor.Extract | src/pfextractor.py:13-25 | passwords are tried in order, each with `join(source, filename)` and the same destination; the result is True exactly when some attempt succeeds; the attempts stop right after the first success |
| Packets.Entries | src/pfpacket.py:223-224 | each status pair is rendered `k: v`, in order, one entry per pair |
| Packets.FileNameSearch | src/pfpacket.py:13 | `FILENAME_RE.search(link)` finds a match exactly when the link holds a '/' |
| Packets.FileNameOfOneLine | src/pfpacket.py:53-54 | on a one-line link the file name is the text after the last '/', and it holds no '/' |
| Packets.RemainingMembers | src/pfpacket.py:127-129 | the rebuilt queue holds exactly the links not yet successful, each once when the links are distinct |
| Packets.RemainingCount | src/pfpacket.py:125-129 | the requeued links and the successful ones are together as many as the links |
| Packets.RequeueCoherent | src/pfpacket.py:110-131 | a queue rebuilt from the unsuccessful links, with the count set to the successes, is coherent |
| Packets.SucceededMembers | src/pfpacket.py:203-204 | a link is among the successes exactly when its transfer ended with return code 0 |
| Packets.FetchAllOutcome | src/pfpacket.py:159-217 | the download loop leaves at the first link that has no file name, left no file, or holds the daily-limit notice. The notice gives False with `err` and the exceeded message. A missing file name or file raises, leaving the state as the callbacks set it. Without such a link it ends in `dl-done` with True. The message is the last report of a transfer that ran |
| Packets.FetchAllQueue | src/pfpacket.py:187-206 | the links after the one the loop left at stay queued (that link itself was taken off), and every link before it is counted |
| Packets.FetchAllSuccesses | src/pfpacket.py:203-204 | the links before the one the loop left at whose transfer returned 0 are appended to the successes, in queue order |
| Packets.FetchAllRun | src/pfpacket.py:219-229 | a kill during any transfer that ran clears the run flag; curl is not started for a link without a file name |
| Packets.FetchAllNotFinished | src/pfpacket.py:187-217 | the download loop ends in `dl-done`, `err`, `kill` or the state it started in, so it never reaches `fin` from another state |
| Packets.FetchAllCoherent | src/pfpacket.py:187-217 | the download loop keeps the links, the queue, the successes and the count coherent |
| Packets.Packet.constructor | src/pfpacket.py:30-43 | a new packet has no links, an empty queue, no successes, state `none`, no message, the run flag set and count 0 |
| Packets.Packet.Add | src/pfpacket.py:45-58 | a known link is refused with False and nothing changes. A new link without a '/' while no file name is known raises and nothing changes. Otherwise it goes to the end of the links and of the queue, the entry file name taken only while none is known |
| Packets.Packet.StatusLine | src/pfpacket.py:70-95 | the name, `files: <count>/<links>`, the repeated advisory if repeated, the message if non-empty, `status: <state>`, the killed advisory if told to stop, in that order and separated by ", " |
| Packets.KilledInfoLast | src/pfpacket.py:89-95 | the status line ends with the killed advisory exactly when the run flag is cleared |
| Packets.Packet.SetWaiting | src/pfpacket.py:97-108 | succeeds exactly from `none`, `err` and `kill` and then sets `wait`; in every other state it changes nothing; `is_finished` is the same before and after |
| Packets.Packet.Reset | src/pfpacket.py:110-136 | from `fin`, `err` or `kill`: back to `none`, the run flag set, the queue rebuilt from the unsuccessful links, and the successes and count kept or, with `force`, cleared; in every other state nothing changes; it never makes `is_finished` true, and clears it from `fin` |
| Packets.Packet.Requeue | src/pfpacket.py:119-129 | the queue becomes the links that are not successful, in link order |
| Packets.Packet.Kill | src/pfpacket.py:264-270 | only clears the run flag |
| Packets.Packet.Update | src/pfpacket.py:219-229 | the message becomes the formatted report; a packet told to stop becomes `kill` and the step is cancelled |
| Packets.Packet.DownloadNext | src/pfpacket.py:159-206 | one pass of the loop over the front link, as `FetchStep` gives it: dequeued, then a raise for no file name or no file, a stop for the daily limit, or the link counted and kept on return code 0 |
| Packets.Packet.Download | src/pfpacket.py:173-217 | refused with no change while `kill/dl/ex/fin/err`; otherwise it ends as `FetchAll` from `dl` with no message (returning True, False or raising), and coherence is kept; `is_finished` is the same before and after |
| Packets.Packet.Extract | src/pfpacket.py:232-262 | refused with no change while `kill/dl/ex/fin/err`; otherwise `fin` and True when some password works, `err` when none does, and `kill` (False) when a kill was seen; unless refused, the result is exactly `is_finished` afterwards, and it is the only call that makes `is_finished` true |
| Curl.Command | src/curl.py:72-78 | `curl link -o dest` then the extra arguments; with a cookie, `--cookie -` comes before them and the cookie is curl's input |
| Curl.Matched | src/curl.py:88-95 | a matching line is cleared, and the percentage taken from group 3 is below 1000 |
| Curl.ReadKeepsClean | src/curl.py:86-97 | the line buffer never holds a '\r' or '\n' |
| Curl.ReadKeepsPercentBound | src/curl.py:89 | the percentage stays below 1000 |
| Curl.ReadWithoutMatch | src/curl.py:82-99 | a read that returns False took no line: the status is untouched, the line only gained the characters other than terminators, and the output is used up |
| Curl.ReadWithMatch | src/curl.py:86-95 | a read that returns True stopped at the first terminator whose gathered line matched, no earlier terminator having seen a match; the status comes from that match, the line is cleared and the rest of the output follows the terminator |
| Curl.CurlSpoon.constructor | src/curl.py:58-78 | the launch is `Command`; percent 0; speed, sizes and eta `???`; empty line |
| Curl.CurlSpoon.ReadChar | src/curl.py:84 | takes the next character of the output, or closes the stream at its end |
| Curl.CurlSpoon.ReadLine | src/curl.py:80-99 | the loop leaves the state, the rest of the output and the result that `Read` gives; on a closed stream it returns False and changes nothing |
| Curl.CurlSpoon.Update | src/curl.py:101-103 | `_update` is one `ReadLine` whose result is dropped |
| Info.TrimLeading | src/pfinfo.py:73 | `lstrip('\n')` removes only newlines from the front and leaves no newline first |
| Info.TrimTrailing | src/pfinfo.py:73 | `rstrip('\n')` removes only newlines from the end and leaves no newline last |
| Info.SqueezeNoDouble | src/pfinfo.py:64-71 | the collecting loop never appends a newline right after a newline |
| Info.SqueezeKeeps | src/pfinfo.py:66-71 | the collecting loop drops nothing but newlines |
| Info.SqueezeIdentity | src/pfinfo.py:64-71 | a text without double newlines passes the loop unchanged |
| Info.TrimLeadingKeeps | src/pfinfo.py:73 | stripping leading newlines drops nothing else |
| Info.TrimTrailingKeeps | src/pfinfo.py:73 | stripping trailing newlines drops nothing else |
| Info.CorrectMsgNoDouble | src/pfinfo.py:61-73 | a corrected message holds no two consecutive newlines |
| Info.CorrectMsgEnds | src/pfinfo.py:73 | a corrected message neither starts nor ends with a newline |
| Info.CorrectMsgKeeps | src/pfinfo.py:61-73 | correcting keeps every character other than a newline, in order |
| Info.CorrectMsgIdempotent | src/pfinfo.py:61-73 | correcting a corrected message changes nothing |
| Info.CorrectMessage | src/pfinfo.py:61-73 | the character loop followed by the strip computes `CorrectMsg` |
| Info.FrameOfCorrected | src/pfinfo.py:79 | a corrected message behind a tag makes a frame that ends in one blank line and holds no earlier one |
| Info.BuildComposite | src/pfinfo.py:119-121 | the buffer is the packets' `name status\n` lines, in order |
| Info.UnforcedCoalesces | src/pfinfo.py:127-132 | two unforced updates with the same buffer queue at most one frame |
| Info.ForcedRepeats | src/pfinfo.py:127-132 | two forced updates with the same buffer queue two identical frames |
| Info.InfoServer.constructor | src/pfinfo.py:42-50 | the queue starts empty and the last status sent is "" |
| Info.InfoServer.PutMsg | src/pfinfo.py:75-79 | appends exactly `msg <corrected message>\n\n` and keeps every frame well formed |
| Info.InfoServer.UpdateStatus | src/pfinfo.py:115-135 | the corrected composite is queued as a `status` frame and remembered exactly when it is non-empty and new, or forced; otherwise the queue and the last status are unchanged; every frame stays well formed |
| Scan.FindFrom | src/pfscan.py:5 | every token found is non-empty and free of `"`, `,`, `^` and space, and each match uses at least eight characters |
| Scan.FindFromNone | src/pfscan.py:5 | `findall` finds nothing exactly when no `http://` followed by an allowed character occurs |
| Scan.FindFromLeftmost | src/pfscan.py:5 | otherwise its first token is the whole allowed run behind the leftmost such occurrence, and the search goes on where that run ends |
| Scan.FoundOccur | src/pfscan.py:40 | every token found occurs in the text right after `http://` |
| Scan.SelectedMembers | src/pfscan.py:43-47 | a link is kept exactly when it is `http://` and a token starting with one of the two hosts; there are no more links than tokens |
| Scan.ScanLinks | src/pfscan.py:38-49 | the loop keeps the tokens on the two hosts, in order of occurrence |
| Scan.ScanLinksShape | src/pfscan.py:38-49 | every link returned occurs in the page and is `http://` followed by a token on a wanted host; at most one link per eight characters |
| Scan.JoinDl | src/pfscan.py:21 | `os.path.join(head, 'dl', tail)` is the head, a '/' unless it is empty or already ends in one, then `dl/` and the tail |
| Scan.RewriteShape | src/pfscan.py:19-22 | the direct link is `http://<srv>.rapidshare.com/files/<head>/dl/<tail>`, or `.../files/dl/<tail>` when the link has no head |
| Scan.ResolveLink | src/pfscan.py:15-22 | no match gives no link; a match on server `srv` gives `http://<srv>.rapidshare.com/files/<head>/dl/<tail>` for the matched path's head and tail, or `.../files/dl/<path>` when the path has no '/' |
| Scan.ResolvedMembers | src/pfscan.py:25-35 | a link is returned exactly when it is the resolution of one of the input links |
| Scan.ResolvedCount | src/pfscan.py:25-35 | no more links come out than go in, and as many exactly when every link resolves |
| Scan.ResolveLinks | src/pfscan.py:25-35 | the loop keeps the resolutions, in input order, and drops the failures |

## Left out

- `src/forks.py` (process start, pipes, `select`, kill, return code) is not part of this model. A step's outcome is an input. For curl this is a `Transfer`; for unrar it is an `Attempt`, or a success flag per password. The progress readers read a `stream` field instead of the pipe.
- In the model, `ReadChar` returns `''` only at the end of the output, as `read_char` does. The callback that `read_char` runs while it waits for data is not modelled. A kill seen by that callback can cancel `_read_line` midway through a line; the model lets each line read run to its end.
- The status callbacks of a step are summarised by the last one. A `kill` from another thread shows as a `killed` flag of the step during which it happened. The cancellation raised by the callback ends only the step, as in `forks.Spoon.update_loop`.
- The key order of the status dict (`status.iteritems()`) is unspecified in Python 2, so the report is a sequence of pairs given as input.
- `pf_packet._has_exceeded` is two flags of a `Transfer`. `written` says whether curl left the file; without it, `os.stat` raises. `exceeded` stands for the file size and content check.
- `download` writes to `os.path.join(dl_dir, filename)`. The destination path is not modelled, only the outcome per link.
- The locks of `pf_packet` and `info_server` are not modelled, because the model is sequential.
- `info_server`'s threads, sockets and logging (`__init__` thread start, `_msg`, `_accept`, `kill`, `_msg_is_running`, `_acc_is_running`) are not modelled: they are I/O and concurrency.
- The curl progress pattern (`FULL_EXTR`, twelve groups) is an abstract matcher. Only its group-3 shape (one to three digits) is recorded.
- `_mklist` is sequence concatenation in `Curl.Command`. `src/unrar.py` defines it but does not call it. `curl.simple_download` is a process launch.
- `_resolve_link` fetches the page and searches it with `RSDL_LINK_RE`. Both the fetch and the search are network or regex inputs: `Scan.ResolveLink` works on the groups of the match, and `resolve_links` uses any resolver.
- `get_name` is the packet's `name` field.
- Packets.Packet.HasName: `has_name` is the single comparison of the `name` field with its argument, so its contract only repeats that comparison; no other property is stated about it.
- Packets.Packet.IsFinished: `is_finished` is the single comparison of the state with `fin`. What it means across calls is stated on `SetWaiting`, `Reset`, `Download` and `Extract` and in `FetchAllNotFinished`.

=== FILE: curl.dfy ===
/**
 * `CurlSpoon`: the progress reader for curl. Characters of curl's error
 * channel are gathered into a line; at a carriage return or newline the
 * line is checked against curl's full progress pattern, and only a line
 * that matches is taken (its fields become the status) and cleared.
 *
 * The 12-group progress pattern is an input: `search(line)` is the result
 * of searching the line with it, `None` when nothing matches. Its third
 * group is `\d{1,3}`, which the `Groups` type records.
 *
 * The tool's output is the `stream` field, read one character at a time;
 * an empty stream stands for the end of the output (`''`).
 */
module Curl {
  import opened Wrappers
  import opened Text

  const Unknown := "???"

  /** The twelve groups of a match; group k is `g[k - 1]`, group 3 holds one to three digits. */
  type Groups = g: seq<string> | |g| == 12 && 1 <= |g[2]| <= 3 && AllDigits(g[2])
    witness ["", "", "0", "", "", "", "", "", "", "", "", ""]

  /** A search of a line with the progress pattern. */
  type Matcher = string -> Option<Groups>

  /** How curl is started: its argument list and the data written to its input. */
  datatype Launch = Launch(argv: seq<string>, input: Option<string>)

  /**
   * `curl link -o dest` followed by the extra arguments; with a cookie,
   * `--cookie -` comes before them and the cookie goes to curl's input.
   */
  function Command(link: string, dest: string, args: seq<string>, cookie: Option<string>): (r: Launch)
    ensures |r.argv| >= 4 && r.argv[..4] == ["curl", link, "-o", dest]
    ensures |r.argv| == 4 + (if cookie.Some? then 2 else 0) + |args|
    ensures r.argv[|r.argv| - |args|..] == args
    ensures cookie.Some? ==> r.argv[4..6] == ["--cookie", "-"]
    ensures r.input == cookie
  {
    if cookie.None? then Launch(["curl", link, "-o", dest] + args, None)
    else Launch(["curl", link, "-o", dest, "--cookie", "-"] + args, cookie)
  }

  /** The reader's state: the line being gathered and the status entries. */
  datatype Progress = Progress(
    line: string,
    percent: nat,
    speed: string,
    dlSize: string,
    totalSize: string,
    eta: string)

  const Initial := Progress("", 0, Unknown, Unknown, Unknown, Unknown)

  /** The status a match leaves, the line cleared. */
  function Matched(p: Progress, g: Groups): (q: Progress)
    ensures q.line == "" && q.percent < 1000
  {
    DigitsValueBound(g[2]);
    Progress("", DigitsValue(g[2]), g[11], g[3], g[1], g[10])
  }

  /** One character read by `_read_line`; the flag says whether `_read_line` returns with it. */
  function Step(search: Matcher, p: Progress, c: char): (Progress, bool)
  {
    if c == '\r' || c == '\n' then
      match search(p.line)
      case Some(g) => (Matched(p, g), true)
      case None => (p, false)
    else (p.(line := p.line + [c]), false)
  }

  /**
   * `_read_line` on an open stream `s`: the new state, the characters left
   * unread and the value returned. The end of the stream returns false.
   */
  function Read(search: Matcher, p: Progress, s: seq<char>): (Progress, seq<char>, bool)
    decreases |s|
  {
    if s == [] then (p, [], false)
    else
      var (q, done) := Step(search, p, s[0]);
      if done then (q, s[1..], true) else Read(search, q, s[1..])
  }

  /** `s` without its line terminators. */
  function Printable(s: string): (r: string)
    ensures '\r' !in r && '\n' !in r
    ensures forall x :: x != '\r' && x != '\n' ==> (x in r <==> x in s)
  {
    if s == [] then []
    else if s[0] == '\r' || s[0] == '\n' then Printable(s[1..])
    else [s[0]] + Printable(s[1..])
  }

  /** The line never holds a line terminator. */
  predicate Clean(p: Progress)
  {
    '\r' !in p.line && '\n' !in p.line
  }

  /** The line never gathers a '\r' or '\n'. */
  lemma {:induction false} ReadKeepsClean(search: Matcher, p: Progress, s: seq<char>)
    requires Clean(p)
    ensures Clean(Read(search, p, s).0)
    decreases |s|
  {
    if s != [] {
      var (q, done) := Step(search, p, s[0]);
      assert Clean(q);
      if !done {
        ReadKeepsClean(search, q, s[1..]);
      }
    }
  }

  /** The percentage stays within the three digits the pattern allows. */
  lemma {:induction false} ReadKeepsPercentBound(search: Matcher, p: Progress, s: seq<char>)
    requires p.percent < 1000
    ensures Read(search, p, s).0.percent < 1000
    decreases |s|
  {
    if s != [] {
      var (q, done) := Step(search, p, s[0]);
      if !done {
        ReadKeepsPercentBound(search, q, s[1..]);
      }
    }
  }

  /**
   * A read that returns false took no line: the status is untouched and
   * the line only gained the characters other than terminators.
   */
  lemma {:induction false} ReadWithoutMatch(search: Matcher, p: Progress, s: seq<char>)
    requires !Read(search, p, s).2
    ensures Read(search, p, s).0 == p.(line := p.line + Printable(s))
    ensures Read(search, p, s).1 == []
    decreases |s|
  {
    if s != [] {
      var (q, done) := Step(search, p, s[0]);
      ReadWithoutMatch(search, q, s[1..]);
      if s[0] != '\r' && s[0] != '\n' {
        assert p.line + Printable(s) == (p.line + [s[0]]) + Printable(s[1..]);
      }
    }
  }

  /**
   * Reading `s` from `p` stops at the terminator `s[k]`: the line gathered
   * before it matches, no earlier terminator saw a matching line, the
   * status is taken from that match and the rest of the output follows the
   * terminator.
   */
  predicate TakenAt(search: Matcher, p: Progress, s: seq<char>, k: int, q: Progress, rest: seq<char>)
  {
    && 0 <= k < |s|
    && (s[k] == '\r' || s[k] == '\n')
    && rest == s[k + 1..]
    && search(p.line + Printable(s[..k])).Some?
    && q == Matched(p, search(p.line + Printable(s[..k])).value)
    && forall j :: 0 <= j < k && (s[j] == '\r' || s[j] == '\n') ==> search(p.line + Printable(s[..j])).None?
  }

  /** After a character that is not taken, the line gathered up to `s[j]` is the same seen from the next state. */
  lemma GatheredShift(search: Matcher, p: Progress, s: seq<char>, j: int)
    requires s != [] && !Step(search, p, s[0]).1 && 0 < j <= |s|
    ensures p.line + Printable(s[..j]) == Step(search, p, s[0]).0.line + Printable(s[1..][..j - 1])
  {
    assert s[..j] == [s[0]] + s[1..][..j - 1];
    if s[0] != '\r' && s[0] != '\n' {
      AppendAssociative(p.line, [s[0]], Printable(s[1..][..j - 1]));
    }
  }

  /** A character that is not taken moves the stopping point one further. */
  lemma TakenAtShift(search: Matcher, p: Progress, s: seq<char>, k: int, q: Progress, rest: seq<char>)
    requires s != [] && !Step(search, p, s[0]).1
    requires TakenAt(search, Step(search, p, s[0]).0, s[1..], k, q, rest)
    ensures TakenAt(search, p, s, k + 1, q, rest)
  {
    GatheredShift(search, p, s, k + 1);
    assert s[1..][k + 1..] == s[k + 2..];
    forall j | 0 <= j < k + 1 && (s[j] == '\r' || s[j] == '\n')
      ensures search(p.line + Printable(s[..j])).None?
    {
      if j == 0 {
        assert s[..0] == [] && p.line + Printable(s[..0]) == p.line;
      } else {
        GatheredShift(search, p, s, j);
        assert s[1..][j - 1] == s[j];
      }
    }
  }

  /** A read that returns true stopped at a terminator whose line matched. */
  lemma {:induction false} ReadWithMatch(search: Matcher, p: Progress, s: seq<char>)
    requires Read(search, p, s).2
    ensures Read(search, p, s).0.line == ""
    ensures exists k :: TakenAt(search, p, s, k, Read(search, p, s).0, Read(search, p, s).1)
    decreases |s|
  {
    var (q, done) := Step(search, p, s[0]);
    if done {
      assert s[0] == '\r' || s[0] == '\n';
      assert s[..0] == [] && Printable(s[..0]) == [];
      assert p.line + Printable(s[..0]) == p.line;
      assert TakenAt(search, p, s, 0, Read(search, p, s).0, Read(search, p, s).1);
    } else {
      ReadWithMatch(search, q, s[1..]);
      var k :| TakenAt(search, q, s[1..], k, Read(search, q, s[1..]).0, Read(search, q, s[1..]).1);
      TakenAtShift(search, p, s, k, Read(search, q, s[1..]).0, Read(search, q, s[1..]).1);
    }
  }

  class CurlSpoon {
    const launch: Launch
    const search: Matcher
    var stream: seq<char>
    var streamOpen: bool
    var line: string
    var percent: nat
    var speed: string
    var dlSize: string
    var totalSize: string
    var eta: string

    function View(): Progress
      reads this
    {
      Progress(line, percent, speed, dlSize, totalSize, eta)
    }

    /**
     * Prepares the download of `link` into `dest` with the extra `args`
     * and the optional cookie; curl's output will be `output`.
     */
    constructor (link: string, dest: string, args: seq<string>, cookie: Option<string>,
                 search: Matcher, output: seq<char>)
      ensures launch == Command(link, dest, args, cookie) && this.search == search
      ensures View() == Initial
      ensures stream == output && streamOpen
    {
      launch := Command(link, dest, args, cookie);
      this.search := search;
      stream := output;
      streamOpen := true;
      line := "";
      percent := 0;
      speed := Unknown;
      dlSize := Unknown;
      totalSize := Unknown;
      eta := Unknown;
    }

    /** The next character of the output; at its end, `None` and the stream is closed. */
    method ReadChar() returns (c: Option<char>)
      modifies this`stream, this`streamOpen
      ensures old(stream) == [] ==> c == None && stream == [] && !streamOpen
      ensures old(stream) != [] ==> c == Some(old(stream)[0]) && stream == old(stream)[1..] && streamOpen == old(streamOpen)
    {
      if stream == [] {
        streamOpen := false;
        return None;
      }
      c := Some(stream[0]);
      stream := stream[1..];
    }

    /**
     * Reads until a line that matches the progress pattern ends, or the
     * output ends; returns whether a progress line was taken.
     */
    method ReadLine() returns (r: bool)
      modifies this`stream, this`streamOpen, this`line, this`percent, this`speed, this`dlSize, this`totalSize, this`eta
      ensures !old(streamOpen) ==> !r && unchanged(this)
      ensures old(streamOpen) ==> (View(), stream, r) == Read(search, old(View()), old(stream)) && streamOpen == r
    {
      while streamOpen
        invariant old(streamOpen) ==> Read(search, View(), stream) == Read(search, old(View()), old(stream))
        invariant old(streamOpen) && !streamOpen ==> stream == []
        invariant !old(streamOpen) ==> unchanged(this)
        decreases |stream| + (if streamOpen then 1 else 0)
      {
        ghost var before := View();
        var c := ReadChar();
        if c.Some? {
          var ch := c.value;
          if ch == '\r' || ch == '\n' {
            var reFull := search(line);
            if reFull.Some? {
              var g := reFull.value;
              DigitsValueBound(g[2]);
              percent := DigitsValue(g[2]);
              speed := g[11];
              totalSize := g[1];
              dlSize := g[3];
              eta := g[10];
              line := "";
              return true;
            }
          } else {
            line := line + [ch];
          }
          assert View() == Step(search, before, ch).0;
        }
      }
      return false;
    }

    /** `_update`: one read, its result dropped. */
    method Update()
      modifies this`stream, this`streamOpen, this`line, this`percent, this`speed, this`dlSize, this`totalSize, this`eta
      ensures !old(streamOpen) ==> unchanged(this)
      ensures old(streamOpen) ==> (View(), stream) == (Read(search, old(View()), old(stream)).0, Read(search, old(View()), old(stream)).1)
    {
      var _ := ReadLine();
    }
  }
}

=== FILE: extractor.dfy ===
/**
 * The password fallback of `extractor.extract`: unrar is started once per
 * password, in order, until one run reports success.
 *
 * Whether the run with a password succeeds (its final status has
 * `success` set) is an input, one flag per password.
 */
module Extraction {
  import Paths
  import Unrar

  /** One start of the archive tool: its argument list and working directory. */
  datatype Invocation = Invocation(argv: seq<string>, cwd: string)

  /** The index of the first success, or `|succeeds|` when there is none. */
  function FirstSuccess(succeeds: seq<bool>): (k: nat)
    ensures k <= |succeeds|
    ensures k < |succeeds| ==> succeeds[k]
    ensures forall i :: 0 <= i < k ==> !succeeds[i]
  {
    if succeeds == [] || succeeds[0] then 0
    else FirstSuccess(succeeds[1..]) + 1
  }

  /** How many passwords are tried: up to and including the first success, or all of them. */
  function Tried(succeeds: seq<bool>): (n: nat)
    ensures n <= |succeeds|
    ensures n < |succeeds| ==> n > 0 && succeeds[n - 1]
    ensures forall i :: 0 <= i < n - 1 ==> !succeeds[i]
  {
    var k := FirstSuccess(succeeds);
    if k < |succeeds| then k + 1 else k
  }

  datatype Extractor = Extractor(source: string, dest: string, pwds: seq<string>)
  {
    /**
     * Tries the passwords in order on `join(source, filename)`, extracting
     * into `dest`; `succeeds[i]` tells whether the run with the i-th
     * password succeeds. The result is true at the first success and
     * false when every password fails, including when there is none.
     */
    method Extract(filename: string, succeeds: seq<bool>) returns (ok: bool, launched: seq<Invocation>)
      requires |succeeds| == |pwds|
      ensures ok <==> exists i :: 0 <= i < |succeeds| && succeeds[i]
      ensures |launched| == Tried(succeeds)
      ensures ok ==> |launched| > 0 && succeeds[|launched| - 1]
      ensures forall i :: 0 <= i < |launched| - 1 ==> !succeeds[i]
      ensures forall i :: 0 <= i < |launched| ==>
        launched[i] == Invocation(Unrar.Command(Paths.Join(source, filename), pwds[i]), dest)
    {
      var path := Paths.Join(source, filename);
      launched := [];
      for i := 0 to |pwds|
        invariant |launched| == i
        invariant forall j :: 0 <= j < i ==> !succeeds[j]
        invariant forall j :: 0 <= j < i ==> launched[j] == Invocation(Unrar.Command(path, pwds[j]), dest)
      {
        launched := launched + [Invocation(Unrar.Command(path, pwds[i]), dest)];
        if succeeds[i] {
          return true, launched;
        }
      }
      return false, launched;
    }
  }
}

=== FILE: info.dfy ===
/**
 * The message side of `info_server`: status messages are normalised by
 * `_correct_msg` (runs of newlines collapsed to one, newlines stripped at
 * both ends) and put on a queue as frames `"<tag> " + text + "\n\n"`.
 * A status frame is only queued when the composite status of the packets
 * changed, unless the caller forces it.
 *
 * The queue is the `queue` field, a sequence with its front first; the
 * threads that drain it into client sockets are not part of this model.
 */
module Info {
  import opened Text
  import Packets

  /** A newline at `i` and another right after it. */
  predicate DoubleAt(s: string, i: int)
    requires 0 <= i < |s| - 1
  {
    s[i] == '\n' && s[i + 1] == '\n'
  }

  /** No two consecutive newlines. */
  predicate NoDoubleNewline(s: string)
  {
    forall i :: 0 <= i < |s| - 1 ==> !DoubleAt(s, i)
  }

  /**
   * The collecting loop of `_correct_msg` from the state where `last` is
   * the character appended last (initially 'l'): a newline right after an
   * appended newline is dropped, every other character is appended.
   */
  function Squeeze(last: char, s: string): string
    decreases |s|
  {
    if s == [] then []
    else if last == '\n' && s[0] == '\n' then Squeeze(last, s[1..])
    else [s[0]] + Squeeze(s[0], s[1..])
  }

  /** `s.lstrip('\n')` */
  function TrimLeading(s: string): (r: string)
    ensures |r| <= |s| && r == s[|s| - |r|..]
    ensures forall i :: 0 <= i < |s| - |r| ==> s[i] == '\n'
    ensures r == [] || r[0] != '\n'
  {
    if s != [] && s[0] == '\n' then TrimLeading(s[1..]) else s
  }

  /** `s.rstrip('\n')` */
  function TrimTrailing(s: string): (r: string)
    ensures r <= s
    ensures forall i :: |r| <= i < |s| ==> s[i] == '\n'
    ensures r == [] || r[|r| - 1] != '\n'
  {
    if s != [] && s[|s| - 1] == '\n' then TrimTrailing(s[..|s| - 1]) else s
  }

  /** `s.strip('\n')` */
  function Strip(s: string): string
  {
    TrimTrailing(TrimLeading(s))
  }

  /** `_correct_msg(msg)` */
  function CorrectMsg(msg: string): string
  {
    Strip(Squeeze('l', msg))
  }

  /** The loop never appends a newline after a newline. */
  lemma {:induction false} SqueezeNoDouble(last: char, s: string)
    ensures NoDoubleNewline(Squeeze(last, s))
    ensures last == '\n' ==> Squeeze(last, s) == [] || Squeeze(last, s)[0] != '\n'
    decreases |s|
  {
    if s != [] {
      if last == '\n' && s[0] == '\n' {
        SqueezeNoDouble(last, s[1..]);
      } else {
        var rest := Squeeze(s[0], s[1..]);
        var r := [s[0]] + rest;
        SqueezeNoDouble(s[0], s[1..]);
        forall i | 0 <= i < |r| - 1 ensures !DoubleAt(r, i) {
          if i > 0 {
            assert !DoubleAt(rest, i - 1);
          }
        }
      }
    }
  }

  /** The loop drops nothing but newlines. */
  lemma {:induction false} SqueezeKeeps(last: char, s: string)
    ensures Without(Squeeze(last, s), '\n') == Without(s, '\n')
    decreases |s|
  {
    if s != [] {
      if last == '\n' && s[0] == '\n' {
        SqueezeKeeps(last, s[1..]);
      } else {
        SqueezeKeeps(s[0], s[1..]);
        assert ([s[0]] + Squeeze(s[0], s[1..]))[1..] == Squeeze(s[0], s[1..]);
      }
    }
  }

  /** A string without double newlines, not continuing one, passes the loop unchanged. */
  lemma {:induction false} SqueezeIdentity(last: char, s: string)
    requires NoDoubleNewline(s)
    requires last == '\n' ==> s == [] || s[0] != '\n'
    ensures Squeeze(last, s) == s
    decreases |s|
  {
    if s != [] {
      assert NoDoubleNewline(s[1..]) by {
        forall i | 0 <= i < |s[1..]| - 1 ensures !DoubleAt(s[1..], i) {
          assert !DoubleAt(s, i + 1);
        }
      }
      if |s| > 1 {
        assert !DoubleAt(s, 0);
      }
      SqueezeIdentity(s[0], s[1..]);
      assert s == [s[0]] + s[1..];
    }
  }

  /** Every piece of a string without double newlines has none either. */
  lemma NoDoubleSlice(s: string, i: nat, j: nat)
    requires NoDoubleNewline(s) && i <= j <= |s|
    ensures NoDoubleNewline(s[i..j])
  {
    forall k | 0 <= k < |s[i..j]| - 1 ensures !DoubleAt(s[i..j], k) {
      assert !DoubleAt(s, i + k);
    }
  }

  /** Newlines only: nothing is left once they are removed. */
  lemma {:induction false} WithoutOnlyNewlines(s: string)
    requires forall i :: 0 <= i < |s| ==> s[i] == '\n'
    ensures Without(s, '\n') == []
    decreases |s|
  {
    if s != [] {
      WithoutOnlyNewlines(s[1..]);
    }
  }

  /** Stripping leading newlines removes newlines only. */
  lemma TrimLeadingKeeps(s: string)
    ensures Without(TrimLeading(s), '\n') == Without(s, '\n')
  {
    var t := TrimLeading(s);
    var k := |s| - |t|;
    assert s == s[..k] + t;
    WithoutOnlyNewlines(s[..k]);
    WithoutAppend(s[..k], t, '\n');
  }

  /** Stripping trailing newlines removes newlines only. */
  lemma TrimTrailingKeeps(s: string)
    ensures Without(TrimTrailing(s), '\n') == Without(s, '\n')
  {
    var r := TrimTrailing(s);
    assert s == r + s[|r|..];
    WithoutOnlyNewlines(s[|r|..]);
    WithoutAppend(r, s[|r|..], '\n');
  }

  /** A corrected message holds no two consecutive newlines. */
  lemma CorrectMsgNoDouble(msg: string)
    ensures NoDoubleNewline(CorrectMsg(msg))
  {
    var d := Squeeze('l', msg);
    SqueezeNoDouble('l', msg);
    var t := TrimLeading(d);
    assert d[|d| - |t|..|d|] == t;
    NoDoubleSlice(d, |d| - |t|, |d|);
    var r := TrimTrailing(t);
    assert t[0..|r|] == r;
    NoDoubleSlice(t, 0, |r|);
  }

  /** A corrected message neither starts nor ends with a newline. */
  lemma CorrectMsgEnds(msg: string)
    ensures CorrectMsg(msg) == [] || (CorrectMsg(msg)[0] != '\n' && CorrectMsg(msg)[|CorrectMsg(msg)| - 1] != '\n')
  {
    var t := TrimLeading(Squeeze('l', msg));
    var r := TrimTrailing(t);
    if r != [] {
      assert r[0] == t[0];
    }
  }

  /** Correcting keeps every character other than a newline, in order. */
  lemma CorrectMsgKeeps(msg: string)
    ensures Without(CorrectMsg(msg), '\n') == Without(msg, '\n')
  {
    SqueezeKeeps('l', msg);
    TrimLeadingKeeps(Squeeze('l', msg));
    TrimTrailingKeeps(TrimLeading(Squeeze('l', msg)));
  }

  /** Correcting a corrected message changes nothing. */
  lemma CorrectMsgIdempotent(msg: string)
    ensures CorrectMsg(CorrectMsg(msg)) == CorrectMsg(msg)
  {
    var r := CorrectMsg(msg);
    CorrectMsgNoDouble(msg);
    CorrectMsgEnds(msg);
    SqueezeIdentity('l', r);
    StripIdentity(r);
  }

  /** A text that neither starts nor ends with a newline is left as it is by the strip. */
  lemma StripIdentity(s: string)
    requires s == [] || (s[0] != '\n' && s[|s| - 1] != '\n')
    ensures Strip(s) == s
  {
    assert TrimLeading(s) == s;
  }

  /** `_correct_msg`: the loop over the characters, then the strip. */
  method CorrectMessage(msg: string) returns (r: string)
    ensures r == CorrectMsg(msg)
  {
    var last := 'l';
    var data := "";
    for i := 0 to |msg|
      invariant data + Squeeze(last, msg[i..]) == Squeeze('l', msg)
    {
      assert msg[i..][1..] == msg[i + 1..];
      if last == '\n' && msg[i] == '\n' {
      } else {
        data := data + [msg[i]];
        last := msg[i];
      }
    }
    assert data + Squeeze(last, []) == data;
    r := Strip(data);
  }

  /**
   * A frame on the wire: it ends with the blank line "\n\n" and holds no
   * earlier "\n\n", so a reader can split the stream on blank lines.
   */
  predicate Framed(f: string)
  {
    && |f| >= 2 && f[|f| - 2..] == "\n\n"
    && forall i :: 0 <= i < |f| - 2 ==> !DoubleAt(f, i)
  }

  /** A corrected message behind a tag without newlines makes a well-formed frame. */
  lemma FrameOfCorrected(tag: string, msg: string)
    requires '\n' !in tag
    ensures Framed(tag + CorrectMsg(msg) + "\n\n")
  {
    var b := CorrectMsg(msg);
    CorrectMsgNoDouble(msg);
    CorrectMsgEnds(msg);
    var f := tag + b + "\n\n";
    forall i | 0 <= i < |f| - 2 ensures !DoubleAt(f, i) {
      if i < |tag| {
        assert f[i] == tag[i];
      } else if i < |tag| + |b| - 1 {
        assert f[i] == b[i - |tag|] && f[i + 1] == b[i - |tag| + 1];
        assert !DoubleAt(b, i - |tag|);
      } else {
        assert f[i] == b[|b| - 1];
      }
    }
    assert f[|f| - 2..] == "\n\n";
  }

  /** The frame tags of the two kinds of message. */
  const MsgTag := "msg "
  const StatusTag := "status "

  /** Neither tag holds a newline. */
  lemma TagsPlain()
    ensures '\n' !in MsgTag && '\n' !in StatusTag
  {
    assert MsgTag == ['m', 's', 'g', ' '];
    assert StatusTag == ['s', 't', 'a', 't', 'u', 's', ' '];
  }

  /** One line of the composite status: the packet's name, a space, its status line. */
  function StatusOf(p: Packets.Packet): string
    reads p
  {
    p.name + " " + p.StatusLine() + "\n"
  }

  /** The buffer `update_status` builds before correcting it: the packets' lines in order. */
  function Composite(packets: seq<Packets.Packet>): string
    reads set p | p in packets
  {
    if packets == [] then ""
    else Composite(packets[..|packets| - 1]) + StatusOf(packets[|packets| - 1])
  }

  /** The loop of `update_status` that gathers the packets' lines. */
  method BuildComposite(packets: seq<Packets.Packet>) returns (buffer: string)
    ensures buffer == Composite(packets)
  {
    buffer := "";
    for i := 0 to |packets|
      invariant buffer == Composite(packets[..i])
    {
      assert packets[..i + 1][..i] == packets[..i];
      buffer := buffer + StatusOf(packets[i]);
    }
    assert packets[..|packets|] == packets;
  }

  /**
   * The decision of `update_status` on the queue and the last status sent:
   * the frame is queued and remembered when the buffer is non-empty and
   * new, or when forced.
   */
  function Publish(queue: seq<string>, oldStatus: string, buffer: string, force: bool): (seq<string>, string)
  {
    if (buffer != "" && buffer != oldStatus) || force then (queue + [StatusTag + buffer + "\n\n"], buffer)
    else (queue, oldStatus)
  }

  /**
   * Two unforced updates with the same buffer add at most one frame: the
   * second one changes nothing.
   */
  lemma UnforcedCoalesces(queue: seq<string>, oldStatus: string, buffer: string)
    ensures var (q1, o1) := Publish(queue, oldStatus, buffer, false);
      && Publish(q1, o1, buffer, false) == (q1, o1)
      && |q1| <= |queue| + 1
  {
  }

  /** Two forced updates add two identical frames. */
  lemma ForcedRepeats(queue: seq<string>, oldStatus: string, buffer: string)
    ensures var (q1, o1) := Publish(queue, oldStatus, buffer, true);
      Publish(q1, o1, buffer, true).0 == queue + [StatusTag + buffer + "\n\n", StatusTag + buffer + "\n\n"]
  {
  }

  /** Every frame of a queue is well-formed. */
  predicate AllFramed(queue: seq<string>)
  {
    forall i :: 0 <= i < |queue| ==> Framed(queue[i])
  }

  lemma AppendFramed(queue: seq<string>, f: string)
    requires AllFramed(queue) && Framed(f)
    ensures AllFramed(queue + [f])
  {
    forall i | 0 <= i < |queue + [f]| ensures Framed((queue + [f])[i]) {
      if i < |queue| {
        assert (queue + [f])[i] == queue[i];
      }
    }
  }

  class InfoServer {
    var queue: seq<string>
    var oldStatus: string

    /** Every queued frame is well-formed. */
    ghost predicate Valid()
      reads this`queue
    {
      AllFramed(queue)
    }

    constructor ()
      ensures Valid() && queue == [] && oldStatus == ""
    {
      queue := [];
      oldStatus := "";
    }

    /** `put_msg`: the corrected message is queued as a `msg` frame. */
    method PutMsg(msg: string)
      requires Valid()
      modifies this`queue
      ensures Valid()
      ensures queue == old(queue) + [MsgTag + CorrectMsg(msg) + "\n\n"]
    {
      var m := CorrectMessage(msg);
      var frame := MsgTag + m + "\n\n";
      TagsPlain();
      FrameOfCorrected(MsgTag, msg);
      AppendFramed(queue, frame);
      queue := queue + [frame];
    }

    /**
     * `update_status`: builds the composite status of the packets, corrects
     * it and publishes it as a `status` frame when it is new or forced.
     */
    method UpdateStatus(packets: seq<Packets.Packet>, force: bool)
      requires Valid()
      modifies this`queue, this`oldStatus
      ensures Valid()
      ensures (queue, oldStatus) == Publish(old(queue), old(oldStatus), CorrectMsg(old(Composite(packets))), force)
    {
      var buffer := BuildComposite(packets);
      ghost var composite := buffer;
      buffer := CorrectMessage(buffer);
      var frame := StatusTag + buffer + "\n\n";
      TagsPlain();
      FrameOfCorrected(StatusTag, composite);
      AppendFramed(queue, frame);
      if buffer != "" && buffer != oldStatus {
        queue := queue + [frame];
        oldStatus := buffer;
      } else if force {
        queue := queue + [frame];
        oldStatus := buffer;
      }
    }
  }
}

=== FILE: packet.dfy ===
/**
 * The packet state machine of `pf_packet`: one named job made of several
 * links that are downloaded one after the other and then extracted.
 *
 * The external steps (one curl run per link, one unrar run per password)
 * are inputs: a `Transfer` says how one download ended and an `Attempt`
 * how one extraction attempt ended. Both carry the report of the step's
 * last status callback and whether `Kill` was called (from another
 * thread) while the step was running.
 */
module Packets {
  import opened Wrappers
  import opened Text
  import Paths
  import Extraction

  /** The lifecycle states, each with the text the status line shows. */
  datatype State = Init | Waiting | Loading | Downloaded | Extracting | Finished | Error | Killed
  {
    function Label(): string
    {
      match this
      case Init => "none"
      case Waiting => "wait"
      case Loading => "dl"
      case Downloaded => "dl-done"
      case Extracting => "ex"
      case Finished => "fin"
      case Error => "err"
      case Killed => "kill"
    }

    /** The states in which `Download` and `Extract` refuse to start. */
    predicate Busy()
    {
      Killed? || Loading? || Extracting? || Finished? || Error?
    }
  }

  const ExceededMessage := "Maybe exceeded the daily limit..."
  const RepeatedInfo := "info: vielleicht wurde die Datei schonmal runtergeladen?"
  const KilledInfo := "info: killed packet must be reset!"

  /** How the download of one link ended. */
  datatype Transfer = Transfer(
    killed: bool,                      // Kill was called while the link was loading
    report: seq<(string, string)>,     // the status entries of the last callback
    returnCode: int,                   // curl's exit code
    written: bool,                     // curl left the destination file, so `os.stat` finds it
    exceeded: bool)                    // the file holds the daily-limit notice

  /** How a call ends: with a value, or with an exception propagating out of it. */
  datatype Outcome<+T> = Returned(value: T) | Raised

  /**
   * How one pass of the download loop ends: on to the next link, out of
   * the loop with False (the daily limit), or with an exception.
   */
  datatype Flow = Proceed | Stop | Throw

  /** How one extraction attempt (one password) ended. */
  datatype Attempt = Attempt(
    killed: bool,
    report: seq<(string, string)>,
    success: bool)                     // unrar reported "All OK"

  /** Whether each attempt succeeded. */
  function Successes(attempts: seq<Attempt>): (s: seq<bool>)
    ensures |s| == |attempts| && forall i :: 0 <= i < |s| ==> s[i] == attempts[i].success
  {
    seq(|attempts|, i requires 0 <= i < |attempts| => attempts[i].success)
  }

  /** The status entries rendered as `key: value`, in order. */
  function Entries(report: seq<(string, string)>): (r: seq<string>)
    ensures |r| == |report|
    ensures forall i :: 0 <= i < |r| ==> r[i] == report[i].0 + ": " + report[i].1
  {
    if report == [] then []
    else [report[0].0 + ": " + report[0].1] + Entries(report[1..])
  }

  /** The message a status callback leaves: the entries joined by ", ". */
  function FormatReport(report: seq<(string, string)>): string
  {
    Join(Entries(report), ", ")
  }

  predicate NoDuplicates(s: seq<string>)
  {
    forall i, j :: 0 <= i < j < |s| ==> s[i] != s[j]
  }

  lemma NoDuplicatesDropFirst(s: seq<string>)
    requires NoDuplicates(s) && s != []
    ensures NoDuplicates(s[1..])
  {
    forall i, j | 0 <= i < j < |s| - 1 ensures s[1..][i] != s[1..][j] {
      assert s[1..][i] == s[i + 1] && s[1..][j] == s[j + 1];
    }
  }

  /** The index of the first '\n' in `s`, or `|s|`. */
  function LineEnd(s: string): (e: nat)
    ensures e <= |s| && '\n' !in s[..e]
    ensures e < |s| ==> s[e] == '\n'
  {
    if s == [] || s[0] == '\n' then 0
    else
      var e := LineEnd(s[1..]) + 1;
      assert s[..e] == [s[0]] + s[1..][..e - 1];
      e
  }

  /** The index of the first '/' in `s` at or after `from`, or `|s|`. */
  function NextSlash(s: string, from: nat): (k: nat)
    requires from <= |s|
    ensures from <= k <= |s| && '/' !in s[from..k]
    ensures k < |s| ==> s[k] == '/'
    decreases |s| - from
  {
    if from == |s| || s[from] == '/' then from
    else
      var k := NextSlash(s, from + 1);
      assert s[from..k] == [s[from]] + s[from + 1..k];
      k
  }

  /**
   * `FILENAME_RE.search(link).group(1)` for the pattern `.*` `/` `([^/]*)`:
   * the leftmost match starts on the first line holding a '/' ('.' does
   * not match a newline), its greedy `.*` stops at that line's last '/',
   * and the group runs from there up to the next '/' or the end.
   * There is a match exactly when the link holds a '/'.
   */
  function FileNameSearch(link: string): (r: Option<string>)
    ensures r.Some? <==> '/' in link
    decreases |link|
  {
    var e := LineEnd(link);
    var j := Paths.LastSlash(link[..e]);
    if j >= 0 then
      Some(link[j + 1..NextSlash(link, j + 1)])
    else if e < |link| then
      SlashBeyondLine(link, e);
      FileNameSearch(link[e + 1..])
    else
      assert link[..e] == link;
      None
  }

  /** A '/' that is not on the first line lies after its end. */
  lemma SlashBeyondLine(link: string, e: nat)
    requires e < |link| && link[e] == '\n'
    requires Paths.LastSlash(link[..e]) < 0
    ensures '/' in link ==> '/' in link[e + 1..]
  {
    if '/' in link {
      var q :| 0 <= q < |link| && link[q] == '/';
      assert forall i :: 0 <= i < e ==> link[..e][i] == link[i];
      assert link[e + 1..][q - e - 1] == '/';
    }
  }

  /** On a one-line link the file name is everything after the last '/'. */
  lemma FileNameOfOneLine(link: string)
    requires '/' in link && '\n' !in link
    ensures exists j :: 0 <= j < |link| && link[j] == '/' && FileNameSearch(link) == Some(link[j + 1..])
    ensures '/' !in FileNameSearch(link).value
  {
    var e := LineEnd(link);
    assert e == |link| && link[..e] == link;
    var j := Paths.LastSlash(link);
    var k := NextSlash(link, j + 1);
    assert k == |link|;
    assert FileNameSearch(link) == Some(link[j + 1..]);
  }

  /** The file name of a link: the text after its last '/' for a one-line link. */
  function FileName(link: string): string
    requires '/' in link
  {
    FileNameSearch(link).value
  }

  /** The links of `links` that are not in `done`, in order. */
  function Remaining(links: seq<string>, done: seq<string>): seq<string>
  {
    if links == [] then []
    else
      var r := Remaining(links[..|links| - 1], done);
      if links[|links| - 1] in done then r else r + [links[|links| - 1]]
  }

  /** The links of `links` that are in `done`, in order. */
  function Kept(links: seq<string>, done: seq<string>): seq<string>
  {
    if links == [] then []
    else
      var r := Kept(links[..|links| - 1], done);
      if links[|links| - 1] in done then r + [links[|links| - 1]] else r
  }

  /** The remaining links are exactly the links not done, each once when the links are distinct. */
  lemma {:induction false} RemainingMembers(links: seq<string>, done: seq<string>)
    ensures forall x :: x in Remaining(links, done) <==> x in links && x !in done
    ensures |Remaining(links, done)| + |Kept(links, done)| == |links|
    ensures NoDuplicates(links) ==> NoDuplicates(Remaining(links, done))
  {
    if links != [] {
      var init := links[..|links| - 1];
      RemainingMembers(init, done);
      assert forall x :: x in links <==> x in init || x == links[|links| - 1];
    }
  }

  /** The kept links are exactly the links done, each once when the links are distinct. */
  lemma {:induction false} KeptMembers(links: seq<string>, done: seq<string>)
    ensures forall x :: x in Kept(links, done) <==> x in links && x in done
    ensures NoDuplicates(links) ==> NoDuplicates(Kept(links, done))
  {
    if links != [] {
      var init := links[..|links| - 1];
      KeptMembers(init, done);
      assert forall x :: x in links <==> x in init || x == links[|links| - 1];
    }
  }

  /** A sequence without duplicates has as many elements as its set. */
  lemma {:induction false} DistinctCard(s: seq<string>)
    requires NoDuplicates(s)
    ensures |set x | x in s| == |s|
  {
    if s != [] {
      var init := s[..|s| - 1];
      DistinctCard(init);
      assert (set x | x in s) == (set x | x in init) + {s[|s| - 1]};
      assert s[|s| - 1] !in (set x | x in init);
    }
  }

  /**
   * When every successful link is one of the links, and neither list has
   * duplicates, the links still to download and the successful ones
   * together are exactly as many as the links.
   */
  lemma RemainingCount(links: seq<string>, done: seq<string>)
    requires NoDuplicates(links) && NoDuplicates(done)
    requires forall x :: x in done ==> x in links
    ensures |Remaining(links, done)| + |done| == |links|
  {
    var k := Kept(links, done);
    RemainingMembers(links, done);
    KeptMembers(links, done);
    assert (set x | x in k) == (set x | x in done);
    DistinctCard(k);
    DistinctCard(done);
  }

  /** Queueing the links not yet downloaded, counting the downloaded ones, is coherent. */
  lemma RequeueCoherent(links: seq<string>, done: seq<string>)
    requires NoDuplicates(links) && NoDuplicates(done)
    requires forall x :: x in done ==> x in links
    ensures Coherent(links, Remaining(links, done), done, |done|)
  {
    RemainingMembers(links, done);
    RemainingCount(links, done);
  }

  /** The links whose transfer ended with return code 0, in order; `ts[i]` belongs to `links[i]`. */
  function Succeeded(links: seq<string>, ts: seq<Transfer>): (r: seq<string>)
    requires |links| == |ts|
    ensures |r| <= |links|
  {
    if links == [] then []
    else (if ts[0].returnCode == 0 then [links[0]] else []) + Succeeded(links[1..], ts[1..])
  }

  /** A link is among the successes exactly when its transfer ended with return code 0. */
  lemma {:induction false} SucceededMembers(links: seq<string>, ts: seq<Transfer>)
    requires |links| == |ts|
    ensures forall x :: x in Succeeded(links, ts) <==> exists i :: 0 <= i < |links| && links[i] == x && ts[i].returnCode == 0
  {
    if links != [] {
      SucceededMembers(links[1..], ts[1..]);
      assert forall i :: 0 < i < |links| ==> links[1..][i - 1] == links[i] && ts[1..][i - 1] == ts[i];
    }
  }

  /** Whether `Kill` was called during any of the transfers. */
  function AnyKilled(ts: seq<Transfer>): (r: bool)
    ensures r <==> exists i :: 0 <= i < |ts| && ts[i].killed
  {
    if ts == [] then false
    else ts[0].killed || AnyKilled(ts[1..])
  }

  /**
   * The download loop leaves at a link when the link has no file name
   * (no '/'), when curl left no file, or when the file holds the
   * daily-limit notice.
   */
  predicate Halts(link: string, t: Transfer)
  {
    '/' !in link || !t.written || t.exceeded
  }

  /** The index of the link at which the download loop leaves, or `|ts|`; `ts[i]` belongs to `links[i]`. */
  function FirstHalt(links: seq<string>, ts: seq<Transfer>): (k: nat)
    requires |links| == |ts|
    ensures k <= |ts|
    ensures k < |ts| ==> Halts(links[k], ts[k])
    ensures forall i :: 0 <= i < k ==> !Halts(links[i], ts[i])
  {
    if ts == [] then 0
    else if Halts(links[0], ts[0]) then 0
    else FirstHalt(links[1..], ts[1..]) + 1
  }

  /** How many transfers ran: curl is not started for a link without a file name. */
  function Ran(links: seq<string>, ts: seq<Transfer>): (m: nat)
    requires |links| == |ts|
    ensures m <= |ts|
  {
    var e := FirstHalt(links, ts);
    if e < |ts| && '/' in links[e] then e + 1 else e
  }

  /** A download never finishes a packet: it ends downloaded, in error, killed or as it started. */
  lemma {:induction false} FetchAllNotFinished(p: Fetch, ts: seq<Transfer>)
    requires |ts| == |p.pending|
    ensures FetchAll(p, ts).0.state in {Downloaded, Error, Killed, p.state}
    ensures FetchAll(p, ts).0.state == Finished ==> p.state == Finished
  {
    FetchAllOutcome(p, ts);
  }

  /** What the links, the queue, the successes and the count must satisfy together. */
  ghost predicate Coherent(links: seq<string>, pending: seq<string>, successful: seq<string>, dlCount: nat)
  {
    && NoDuplicates(links) && NoDuplicates(pending) && NoDuplicates(successful)
    && (forall x :: x in pending ==> x in links)
    && (forall x :: x in successful ==> x in links && x !in pending)
    && |successful| <= dlCount
    && dlCount + |pending| <= |links|
  }

  /** The part of a packet that a download changes. */
  datatype Fetch = Fetch(
    state: State,
    msg: Option<string>,
    pending: seq<string>,
    successful: seq<string>,
    dlCount: nat,
    run: bool)

  /**
   * One pass of the download loop over the front link, whose transfer
   * ended as `t`. The link is taken off the queue first; a link without a
   * file name raises before curl starts, and a missing file raises in
   * `_has_exceeded` after the transfer's callbacks ran.
   */
  function FetchStep(p: Fetch, t: Transfer): (Fetch, Flow)
    requires p.pending != []
  {
    var rest := p.pending[1..];
    if FileNameSearch(p.pending[0]).None? then (p.(pending := rest), Throw)
    else
      var run := p.run && !t.killed;
      var q := Fetch(if run then p.state else Killed, Some(FormatReport(t.report)), rest, p.successful, p.dlCount, run);
      if !t.written then (q, Throw)
      else if t.exceeded then (q.(state := Error, msg := Some(ExceededMessage)), Stop)
      else
        (q.(successful := if t.returnCode == 0 then p.successful + [p.pending[0]] else p.successful,
            dlCount := p.dlCount + 1),
         Proceed)
  }

  /**
   * The download loop over the whole queue, `ts[i]` being the i-th link's
   * outcome: the final state and how `download` ends.
   */
  function FetchAll(p: Fetch, ts: seq<Transfer>): (Fetch, Outcome<bool>)
    requires |ts| == |p.pending|
    decreases |ts|
  {
    if p.pending == [] then (p.(state := Downloaded), Returned(true))
    else
      var (q, flow) := FetchStep(p, ts[0]);
      if flow == Proceed then FetchAll(q, ts[1..])
      else if flow == Stop then (q, Returned(false))
      else (q, Raised)
  }

  /** A link taken without leaving the loop: the loop goes on with the rest, the link either added to the successes or not. */
  lemma FetchAllUnfold(p: Fetch, ts: seq<Transfer>)
    requires |ts| == |p.pending| && p.pending != [] && FetchStep(p, ts[0]).1 == Proceed
    ensures FetchAll(p, ts) == FetchAll(FetchStep(p, ts[0]).0, ts[1..])
    ensures FirstHalt(p.pending, ts) == FirstHalt(p.pending[1..], ts[1..]) + 1
    ensures Ran(p.pending, ts) == Ran(p.pending[1..], ts[1..]) + 1
    ensures FetchStep(p, ts[0]).0.pending == p.pending[1..]
    ensures FetchStep(p, ts[0]).0.successful == p.successful + (if ts[0].returnCode == 0 then [p.pending[0]] else [])
    ensures FetchStep(p, ts[0]).0.dlCount == p.dlCount + 1
    ensures FetchStep(p, ts[0]).0.run == (p.run && !ts[0].killed)
    ensures FetchStep(p, ts[0]).0.state == (if p.run && !ts[0].killed then p.state else Killed)
    ensures FetchStep(p, ts[0]).0.msg == Some(FormatReport(ts[0].report))
  {
    assert !Halts(p.pending[0], ts[0]);
  }

  /**
   * How the download loop ends. It leaves at the first link that halts
   * it: with False, the notice as the message and `Error` for the daily
   * limit; by an exception for a link without a file name or without a
   * file, the state then being as the callbacks left it (`Killed` once
   * the packet was told to stop). Otherwise it drains the queue into
   * `Downloaded` and returns True. The message is the last report of the
   * transfers that ran.
   */
  lemma {:induction false} FetchAllOutcome(p: Fetch, ts: seq<Transfer>)
    requires |ts| == |p.pending|
    ensures var (q, r) := FetchAll(p, ts);
      var n, e, m := |ts|, FirstHalt(p.pending, ts), Ran(p.pending, ts);
      && r == (if e == n then Returned(true) else if '/' in p.pending[e] && ts[e].written then Returned(false) else Raised)
      && q.state == (if e == n then Downloaded else if r == Returned(false) then Error else if m == 0 || q.run then p.state else Killed)
      && q.msg == (if r == Returned(false) then Some(ExceededMessage) else if m == 0 then p.msg else Some(FormatReport(ts[m - 1].report)))
    decreases |ts|
  {
    if p.pending != [] {
      var (q, flow) := FetchStep(p, ts[0]);
      if flow == Proceed {
        FetchAllUnfold(p, ts);
        FetchAllOutcome(q, ts[1..]);
        FetchAllRun(q, ts[1..]);
      } else if FileNameSearch(p.pending[0]).None? {
        assert Ran(p.pending, ts) == 0;
      } else {
        assert Ran(p.pending, ts) == 1;
      }
    }
  }

  /**
   * What the download loop leaves of the queue and the count: the links
   * after the one it left at stay queued, and every link before it is
   * counted.
   */
  lemma {:induction false} FetchAllQueue(p: Fetch, ts: seq<Transfer>)
    requires |ts| == |p.pending|
    ensures var q, e := FetchAll(p, ts).0, FirstHalt(p.pending, ts);
      && q.pending == (if e == |ts| then [] else p.pending[e + 1..])
      && q.dlCount == p.dlCount + e
    decreases |ts|
  {
    if p.pending != [] && FetchStep(p, ts[0]).1 == Proceed {
      var q := FetchStep(p, ts[0]).0;
      FetchAllUnfold(p, ts);
      FetchAllQueue(q, ts[1..]);
      var e := FirstHalt(p.pending, ts);
      if e < |ts| {
        assert p.pending[e + 1..] == q.pending[e..];
      }
    }
  }


  /** The successes among the first `e` links: the first link's, then those among the next `e - 1`. */
  lemma SucceededPrefix(links: seq<string>, ts: seq<Transfer>, e: nat)
    requires |links| == |ts| && 0 < e <= |links|
    ensures Succeeded(links[..e], ts[..e])
      == (if ts[0].returnCode == 0 then [links[0]] else []) + Succeeded(links[1..][..e - 1], ts[1..][..e - 1])
  {
    assert links[..e][1..] == links[1..][..e - 1];
    assert ts[..e][1..] == ts[1..][..e - 1];
  }


  /** The links before the one the loop left at whose transfer ended with return code 0 are added to the successes, in order. */
  lemma {:induction false} FetchAllSuccesses(p: Fetch, ts: seq<Transfer>)
    requires |ts| == |p.pending|
    ensures var e := FirstHalt(p.pending, ts);
      FetchAll(p, ts).0.successful == p.successful + Succeeded(p.pending[..e], ts[..e])
    decreases |ts|
  {
    if p.pending == [] {
      assert p.pending[..0] == [];
    } else if FetchStep(p, ts[0]).1 != Proceed {
      assert p.pending[..0] == [];
    } else {
      var q := FetchStep(p, ts[0]).0;
      FetchAllSuccesses(q, ts[1..]);
      SuccessesStep(p, ts);
    }
  }

  /** The step of `FetchAllSuccesses`: a link taken without leaving goes in front of the later successes. */
  lemma SuccessesStep(p: Fetch, ts: seq<Transfer>)
    requires |ts| == |p.pending| && p.pending != [] && FetchStep(p, ts[0]).1 == Proceed
    requires var q := FetchStep(p, ts[0]).0; var e := FirstHalt(q.pending, ts[1..]);
      FetchAll(q, ts[1..]).0.successful == q.successful + Succeeded(q.pending[..e], ts[1..][..e])
    ensures var e := FirstHalt(p.pending, ts);
      FetchAll(p, ts).0.successful == p.successful + Succeeded(p.pending[..e], ts[..e])
  {
    var q := FetchStep(p, ts[0]).0;
    FetchAllUnfold(p, ts);
    var e := FirstHalt(p.pending, ts);
    var first := if ts[0].returnCode == 0 then [p.pending[0]] else [];
    var rest := Succeeded(q.pending[..e - 1], ts[1..][..e - 1]);
    SucceededPrefix(p.pending, ts, e);
    AppendAssociative(p.successful, first, rest);
  }

  /** A kill during any transfer that ran clears the run flag. */
  lemma {:induction false} FetchAllRun(p: Fetch, ts: seq<Transfer>)
    requires |ts| == |p.pending|
    ensures FetchAll(p, ts).0.run == (p.run && !AnyKilled(ts[..Ran(p.pending, ts)]))
    decreases |ts|
  {
    if p.pending == [] {
      assert ts[..0] == [];
    } else if FetchStep(p, ts[0]).1 != Proceed {
      HaltRun(p, ts);
    } else {
      var q := FetchStep(p, ts[0]).0;
      FetchAllUnfold(p, ts);
      FetchAllRun(q, ts[1..]);
      var m := Ran(p.pending, ts);
      assert ts[..m][1..] == ts[1..][..m - 1];
    }
  }

  /** The case of `FetchAllRun` where the loop leaves at the front link: only that link's transfer can have run. */
  lemma HaltRun(p: Fetch, ts: seq<Transfer>)
    requires |ts| == |p.pending| && p.pending != [] && FetchStep(p, ts[0]).1 != Proceed
    ensures FetchAll(p, ts).0.run == (p.run && !AnyKilled(ts[..Ran(p.pending, ts)]))
  {
    assert FirstHalt(p.pending, ts) == 0;
    if FileNameSearch(p.pending[0]).None? {
      assert Ran(p.pending, ts) == 0 && ts[..0] == [];
    } else {
      assert Ran(p.pending, ts) == 1 && ts[..1] == [ts[0]];
    }
  }


  /** The download loop keeps the links, the queue, the successes and the count coherent. */
  lemma {:induction false} FetchAllCoherent(links: seq<string>, p: Fetch, ts: seq<Transfer>)
    requires |ts| == |p.pending|
    requires Coherent(links, p.pending, p.successful, p.dlCount)
    ensures var q := FetchAll(p, ts).0; Coherent(links, q.pending, q.successful, q.dlCount)
    decreases |ts|
  {
    if p.pending != [] {
      FetchStepCoherent(links, p, ts[0]);
      var (q, flow) := FetchStep(p, ts[0]);
      if flow == Proceed {
        FetchAllCoherent(links, q, ts[1..]);
      }
    }
  }

  lemma FetchStepCoherent(links: seq<string>, p: Fetch, t: Transfer)
    requires p.pending != []
    requires Coherent(links, p.pending, p.successful, p.dlCount)
    ensures var q := FetchStep(p, t).0; Coherent(links, q.pending, q.successful, q.dlCount)
  {
    var link := p.pending[0];
    assert link in p.pending && link !in p.successful;
    NoDuplicatesDropFirst(p.pending);
    assert forall x :: x in p.pending[1..] ==> x in p.pending;
  }

  /** The one-element list `[x]` when `present`, else the empty list. */
  function Listed(present: bool, x: string): seq<string>
  {
    if present then [x] else []
  }

  /** Joining the status fields puts ", " between consecutive ones. */
  lemma JoinFields(name: string, files: string, rep: bool, repText: string, hasMsg: bool, msgText: string,
                   status: string, killed: bool, killedText: string)
    ensures Join([name, files] + Listed(rep, repText) + Listed(hasMsg, msgText) + [status] + Listed(killed, killedText), ", ")
      == name + ", " + (files + ", " + (
           (if rep then repText + ", " else "") + (
           (if hasMsg then msgText + ", " else "") + (
           status + (if killed then ", " + killedText else "")))))
  {
    var tail := [status] + Listed(killed, killedText);
    var mid := Listed(hasMsg, msgText) + tail;
    var rest := Listed(rep, repText) + mid;
    var fields := [name] + ([files] + rest);
    assert [name, files] + Listed(rep, repText) + Listed(hasMsg, msgText) + [status] + Listed(killed, killedText) == fields;
    var tailText := status + (if killed then ", " + killedText else "");
    if killed { JoinCons(status, [killedText], ", "); } else { assert tail == [status]; }
    assert Join(tail, ", ") == tailText;
    var midText := (if hasMsg then msgText + ", " else "") + tailText;
    if hasMsg { JoinCons(msgText, tail, ", "); } else { assert mid == tail; }
    assert Join(mid, ", ") == midText;
    var restText := (if rep then repText + ", " else "") + midText;
    if rep { JoinCons(repText, mid, ", "); } else { assert rest == mid; }
    assert Join(rest, ", ") == restText;
    JoinCons(files, rest, ", ");
    JoinCons(name, [files] + rest, ", ");
  }

  class Packet {
    const name: string
    const repeated: bool
    var links: seq<string>
    var firstFile: string
    var pending: seq<string>          // the FIFO of links still to download, front first
    var msg: Option<string>
    var state: State
    var run: bool
    var dlCount: nat
    var successful: seq<string>

    /**
     * What every operation keeps: no link twice, the queue and the
     * successful links are disjoint parts of the links, and the processed
     * count lies between the successes and the links not queued.
     */
    ghost predicate Valid()
      reads this`links, this`pending, this`successful, this`dlCount
    {
      Coherent(links, pending, successful, dlCount)
    }

    /** The part a download changes. */
    function View(): Fetch
      reads this`state, this`msg, this`pending, this`successful, this`dlCount, this`run
    {
      Fetch(state, msg, pending, successful, dlCount, run)
    }

    constructor (name: string, repeated: bool)
      ensures Valid()
      ensures this.name == name && this.repeated == repeated
      ensures links == [] && firstFile == "" && pending == [] && successful == []
      ensures msg == None && state == Init && run && dlCount == 0
    {
      this.name := name;
      this.repeated := repeated;
      links := [];
      firstFile := "";
      pending := [];
      msg := None;
      state := Init;
      run := true;
      dlCount := 0;
      successful := [];
    }

    /**
     * A new link goes to the end of the links and of the queue; the first
     * file name is taken from it while none is known yet. A known link is
     * refused. A new link without a file name while none is known raises,
     * leaving the packet as it was.
     */
    method Add(link: string) returns (r: Outcome<bool>)
      requires Valid()
      modifies this`links, this`pending, this`firstFile
      ensures Valid()
      ensures r == if link in old(links) then Returned(false)
                   else if old(firstFile) == "" && '/' !in link then Raised
                   else Returned(true)
      ensures r == Returned(true) ==> links == old(links) + [link] && pending == old(pending) + [link]
      ensures r == Returned(true) ==> firstFile == if old(firstFile) == "" then FileName(link) else old(firstFile)
      ensures r != Returned(true) ==> links == old(links) && pending == old(pending) && firstFile == old(firstFile)
    {
      if link in links {
        return Returned(false);
      }
      if firstFile == "" {
        var found := FileNameSearch(link);
        if found.None? {
          return Raised;
        }
        firstFile := found.value;
      }
      links := links + [link];
      pending := pending + [link];
      return Returned(true);
    }

    function HasName(n: string): (r: bool)
      ensures r <==> n == name
    {
      name == n
    }

    /** The comma-separated fields of the status line, in order. */
    function Fields(): seq<string>
      reads this
    {
      [name, "files: " + NatToString(dlCount) + "/" + NatToString(|links|)]
      + Listed(repeated, RepeatedInfo)
      + Listed(msg.Some? && msg.value != "", if msg.Some? then msg.value else "")
      + ["status: " + state.Label()]
      + Listed(!run, KilledInfo)
    }

    /**
     * The status line: the name, the processed count over the number of
     * links, the repeated advisory when the packet is a repeat, the message
     * when there is one, the state, and the killed advisory when the packet
     * was told to stop.
     */
    function StatusLine(): (line: string)
      reads this
      ensures line ==
        name + ", " + ("files: " + NatToString(dlCount) + "/" + NatToString(|links|) + ", " + (
        (if repeated then RepeatedInfo + ", " else "") + (
        (if msg.Some? && msg.value != "" then msg.value + ", " else "") + (
        "status: " + state.Label() + (if run then "" else ", " + KilledInfo)))))
    {
      JoinFields(name, "files: " + NatToString(dlCount) + "/" + NatToString(|links|),
        repeated, RepeatedInfo, msg.Some? && msg.value != "", if msg.Some? then msg.value else "",
        "status: " + state.Label(), !run, KilledInfo);
      Join(Fields(), ", ")
    }

    /**
     * `Wait` is refused while the packet is queued, loading, extracting or
     * done; from any other state it becomes the state.
     */
    method SetWaiting() returns (ok: bool)
      modifies this`state
      ensures ok <==> old(state) in {Init, Error, Killed}
      ensures state == if ok then Waiting else old(state)
      ensures IsFinished() == old(IsFinished())
    {
      if state in {Waiting, Loading, Downloaded, Extracting, Finished} {
        return false;
      }
      assert state.Init? || state.Error? || state.Killed?;
      state := Waiting;
      return true;
    }

    /**
     * A finished, failed or killed packet goes back to `Init` and may run
     * again; the queue is rebuilt from the links not yet downloaded. With
     * `force` the earlier successes are forgotten as well.
     */
    method Reset(force: bool) returns (ok: bool)
      requires Valid()
      modifies this`state, this`run, this`pending, this`successful, this`dlCount
      ensures Valid()
      ensures ok <==> old(state) in {Finished, Error, Killed}
      ensures !ok ==> unchanged(this)
      ensures ok ==> state == Init && run
      ensures IsFinished() ==> old(IsFinished())
      ensures ok ==> successful == (if force then [] else old(successful))
      ensures ok ==> dlCount == |successful|
      ensures ok ==> pending == Remaining(links, successful)
    {
      if state !in {Finished, Error, Killed} {
        return false;
      }
      state := Init;
      run := true;
      if force {
        successful := [];
        dlCount := 0;
      } else {
        dlCount := |successful|;
      }
      Requeue();
      RequeueCoherent(links, successful);
      return true;
    }

    /** Rebuilds the queue: every link not among the successes, in link order. */
    method Requeue()
      modifies this`pending
      ensures pending == Remaining(links, successful)
    {
      pending := [];
      for i := 0 to |links|
        invariant pending == Remaining(links[..i], successful)
      {
        assert links[..i + 1][..i] == links[..i];
        if links[i] !in successful {
          pending := pending + [links[i]];
        }
      }
      assert links[..|links|] == links;
    }

    /** `is_finished`: only a successful `Extract` sets it, and only `Reset` clears it. */
    function IsFinished(): (r: bool)
      reads this
      ensures r <==> state == Finished
    {
      state == Finished
    }

    /** Only asks the packet to stop: the running step notices it at its next status callback. */
    method Kill()
      modifies this`run
      ensures !run
    {
      run := false;
    }

    /**
     * The status callback of a running step: the message becomes the
     * step's report; a packet told to stop becomes `Killed` and asks the
     * step to cancel.
     */
    method Update(report: seq<(string, string)>) returns (cancel: bool)
      modifies this`msg, this`state
      ensures msg == Some(FormatReport(report))
      ensures cancel == !run
      ensures state == if run then old(state) else Killed
    {
      msg := Some(FormatReport(report));
      cancel := false;
      if !run {
        state := Killed;
        cancel := true;
      }
    }

    /**
     * One pass of the download loop: the link at the front of the queue is
     * taken off it and fetched with outcome `t`. A link without a file name
     * raises before curl starts; a missing file raises when its size is
     * read; the daily-limit notice ends in `Error`. Otherwise the link is
     * counted, and kept as a success on return code 0.
     */
    method DownloadNext(t: Transfer) returns (flow: Flow)
      requires pending != []
      modifies this`state, this`msg, this`pending, this`successful, this`dlCount, this`run
      ensures (View(), flow) == FetchStep(old(View()), t)
    {
      var link := pending[0];
      pending := pending[1..];
      var filename := FileNameSearch(link);
      if filename.None? {
        return Throw;
      }
      if t.killed {
        Kill();
      }
      // the last callback of the transfer; a cancellation ends only the transfer
      var _ := Update(t.report);
      if !t.written {
        return Throw;
      }
      if t.exceeded {
        state := Error;
        msg := Some(ExceededMessage);
        return Stop;
      }
      if t.returnCode == 0 {
        successful := successful + [link];
      }
      dlCount := dlCount + 1;
      return Proceed;
    }

    /**
     * Downloads the queued links in order, `ts[i]` being the outcome for
     * the i-th of them: `FetchAll` from `Loading` with no message, whose
     * results `FetchAllOutcome`, `FetchAllQueue`, `FetchAllSuccesses` and
     * `FetchAllRun` spell out. Refused while the packet is busy.
     */
    method Download(ts: seq<Transfer>) returns (r: Outcome<bool>)
      requires Valid()
      requires |ts| == |pending|
      modifies this`state, this`msg, this`pending, this`successful, this`dlCount, this`run
      ensures Valid()
      ensures old(state).Busy() ==> r == Returned(false) && unchanged(this)
      ensures !old(state).Busy() ==> (View(), r) == FetchAll(old(View()).(state := Loading, msg := None), ts)
      ensures IsFinished() == old(IsFinished())
    {
      if state.Busy() {
        return Returned(false);
      }
      state := Loading;
      msg := None;
      ghost var start := View();
      FetchAllCoherent(links, start, ts);
      FetchAllNotFinished(start, ts);
      var i := 0;
      while pending != []
        invariant 0 <= i <= |ts| && |ts[i..]| == |pending|
        invariant FetchAll(View(), ts[i..]) == FetchAll(start, ts)
        decreases |pending|
      {
        ghost var before := View();
        var flow := DownloadNext(ts[i]);
        assert ts[i..][1..] == ts[i + 1..];
        if flow == Throw {
          assert FetchAll(before, ts[i..]) == (View(), Raised);
          return Raised;
        }
        if flow == Stop {
          assert FetchAll(before, ts[i..]) == (View(), Returned(false));
          return Returned(false);
        }
        i := i + 1;
      }
      state := Downloaded;
      return Returned(true);
    }

    /**
     * Extracts the entry file with the passwords in order, `attempts[i]`
     * being the outcome with the i-th password; the first success ends in
     * `Finished`, no success in `Error`. A kill seen by a status callback
     * leaves the packet `Killed`.
     */
    method Extract(source: string, dest: string, pwds: seq<string>, attempts: seq<Attempt>) returns (ok: bool)
      requires |attempts| == |pwds|
      modifies this`state, this`msg, this`run
      ensures old(state).Busy() ==> !ok && unchanged(this)
      ensures !old(state).Busy() ==>
        var n := Extraction.Tried(Successes(attempts));
        && run == (old(run) && forall i :: 0 <= i < n ==> !attempts[i].killed)
        && msg == (if n == 0 then None else Some(FormatReport(attempts[n - 1].report)))
        && state == (if n > 0 && !run then Killed
                     else if exists i :: 0 <= i < |attempts| && attempts[i].success then Finished
                     else Error)
        && ok == IsFinished()
      ensures IsFinished() ==> ok || old(IsFinished())
    {
      if state.Busy() {
        return false;
      }
      state := Extracting;
      msg := None;
      var succeeds := Successes(attempts);
      var extractor := Extraction.Extractor(source, dest, pwds);
      var extracted, launched := extractor.Extract(firstFile, succeeds);
      var n := |launched|;
      // the status callbacks of the attempts that ran: a kill during any of
      // them is seen by the last one, which also leaves its report
      if exists i :: 0 <= i < n && attempts[i].killed {
        Kill();
      }
      if n > 0 {
        var _ := Update(attempts[n - 1].report);
      }
      if state == Killed {
        return false;
      }
      if extracted {
        state := Finished;
        return true;
      }
      state := Error;
      return false;
    }
  }

  /**
   * The killed advisory closes the status line exactly when the packet was
   * told to stop.
   */
  lemma KilledInfoLast(p: Packet)
    ensures !p.run <==> EndsWith(p.StatusLine(), KilledInfo)
  {
    var fields := p.Fields();
    var line := Join(fields, ", ");
    JoinEndsWithLast(fields, ", ");
    var last := fields[|fields| - 1];
    if p.run {
      var text := p.state.Label();
      assert last == "status: " + text;
      assert text[|text| - 1] != '!';
      assert line[|line| - 1] == last[|last| - 1] != '!';
    } else {
      assert last == KilledInfo;
    }
  }

}

=== FILE: paths.dfy ===
/**
 * The two POSIX path helpers the core uses: `os.path.join` and
 * `os.path.split` of Python 2's `posixpath`.
 */
module Paths {

  predicate AllSlashes(s: string)
  {
    forall i :: 0 <= i < |s| ==> s[i] == '/'
  }

  /** `os.path.join(a, b)`: an absolute `b` replaces `a`; otherwise one '/' separates them. */
  function Join(a: string, b: string): (r: string)
    ensures |b| > 0 && b[0] == '/' ==> r == b
    ensures !(|b| > 0 && b[0] == '/') ==>
      |a| + |b| <= |r| <= |a| + |b| + 1 && a <= r && r[|r| - |b|..] == b
    ensures !(|b| > 0 && b[0] == '/') ==>
      (|r| == |a| + |b| + 1 <==> a != "" && a[|a| - 1] != '/')
    ensures |r| == |a| + |b| + 1 ==> r[|a|] == '/'
  {
    if |b| > 0 && b[0] == '/' then b
    else if a == "" || a[|a| - 1] == '/' then a + b
    else a + "/" + b
  }

  /** `p.rfind('/')`: the index of the last '/', or -1. */
  function LastSlash(p: string): (i: int)
    ensures -1 <= i < |p|
    ensures i >= 0 ==> p[i] == '/'
    ensures forall j :: i < j < |p| ==> p[j] != '/'
  {
    if p == [] then -1
    else if p[|p| - 1] == '/' then |p| - 1
    else LastSlash(p[..|p| - 1])
  }

  /** `s.rstrip('/')` */
  function StripTrailingSlashes(s: string): (r: string)
    ensures r <= s
    ensures r == [] || r[|r| - 1] != '/'
    ensures AllSlashes(s[|r|..])
  {
    if s != [] && s[|s| - 1] == '/' then StripTrailingSlashes(s[..|s| - 1]) else s
  }

  /**
   * `os.path.split(p)`: the tail is everything after the last '/', the head
   * everything before it, with its trailing slashes removed unless the head
   * consists of slashes only.
   */
  function Split(p: string): (r: (string, string))
    ensures '/' !in r.1 && |r.1| <= |p| && p[|p| - |r.1|..] == r.1
    ensures '/' !in p ==> r == ("", p)
    ensures '/' in p ==> |r.1| < |p| && p[|p| - |r.1| - 1] == '/'
  {
    var i := LastSlash(p) + 1;
    var head, tail := p[..i], p[i..];
    assert '/' !in tail by {
      forall j | 0 <= j < |tail| ensures tail[j] != '/' { assert tail[j] == p[i + j]; }
    }
    if head != [] && !AllSlashes(head) then (StripTrailingSlashes(head), tail) else (head, tail)
  }

  /**
   * The head of a split is a prefix of the path, only slashes lie between
   * it and the tail, and it ends in a '/' only when it is all slashes; a
   * part before the tail made of slashes only is kept whole.
   */
  lemma SplitHead(p: string)
    ensures Split(p).0 <= p && |Split(p).0| + |Split(p).1| <= |p|
    ensures AllSlashes(p[|Split(p).0|..|p| - |Split(p).1|])
    ensures Split(p).0 == [] || Split(p).0[|Split(p).0| - 1] != '/' || AllSlashes(Split(p).0)
    ensures AllSlashes(p[..|p| - |Split(p).1|]) ==> Split(p).0 == p[..|p| - |Split(p).1|]
  {
    var i := LastSlash(p) + 1;
    var head, tail := p[..i], p[i..];
    if head != [] && !AllSlashes(head) {
      var h := StripTrailingSlashes(head);
      assert Split(p) == (h, tail);
      assert p[|h|..|p| - |tail|] == head[|h|..];
    } else {
      assert Split(p) == (head, tail);
      assert p[|head|..|p| - |tail|] == [];
    }
  }
}

=== FILE: scan.dfy ===
/**
 * Link scanning: `scanlinks` finds every `http://` link in a page with the
 * pattern `http://([^",^ ]+)` and keeps those on the two known hosts;
 * `resolve_links` turns links into direct download links and drops the
 * ones that cannot be resolved.
 *
 * Fetching the page behind a link and searching it is an input: the
 * rewrite is modelled on the groups `srv` and `link` of the first
 * rapidshare match in the page, and `resolve_links` on the result of
 * `_resolve_link` for each link.
 */
module Scan {
  import opened Wrappers
  import opened Text
  import Paths

  const Scheme := "http://"
  const Serienjunkies := "download.serienjunkies.org"
  const Rapidshare := "rapidshare.com"

  /** The characters of the class `[^",^ ]`. */
  predicate Allowed(c: char)
  {
    c != '"' && c != ',' && c != '^' && c != ' '
  }

  /** The pattern matches at `i`: the scheme and at least one allowed character. */
  predicate MatchAt(s: string, i: nat)
  {
    i + 7 < |s| && s[i..i + 7] == Scheme && Allowed(s[i + 7])
  }

  /** Where the greedy run of allowed characters starting at `j` ends. */
  function RunEnd(s: string, j: nat): (e: nat)
    requires j <= |s|
    ensures j <= e <= |s|
    ensures forall k :: j <= k < e ==> Allowed(s[k])
    ensures e < |s| ==> !Allowed(s[e])
    decreases |s| - j
  {
    if j == |s| || !Allowed(s[j]) then j else RunEnd(s, j + 1)
  }

  /** Every token is non-empty and made of allowed characters. */
  predicate Token(t: string)
  {
    |t| > 0 && forall k :: 0 <= k < |t| ==> Allowed(t[k])
  }

  /**
   * `findall` from position `i`: a match takes the scheme and the longest
   * run of allowed characters behind it, and the search goes on after it;
   * elsewhere it moves one character on. Each match uses at least eight
   * characters.
   */
  function FindFrom(s: string, i: nat): (r: seq<string>)
    requires i <= |s|
    ensures forall k :: 0 <= k < |r| ==> Token(r[k])
    ensures 8 * |r| <= |s| - i
    decreases |s| - i
  {
    if i == |s| then []
    else if MatchAt(s, i) then
      var e := RunEnd(s, i + 7);
      [s[i + 7..e]] + FindFrom(s, e)
    else FindFrom(s, i + 1)
  }

  /** `findall` finds nothing exactly when no match starts at or after `i`. */
  lemma {:induction false} FindFromNone(s: string, i: nat)
    requires i <= |s|
    ensures FindFrom(s, i) == [] <==> forall j :: i <= j < |s| ==> !MatchAt(s, j)
    decreases |s| - i
  {
    if i < |s| && !MatchAt(s, i) {
      FindFromNone(s, i + 1);
    }
  }

  /**
   * `findall` finds every match: from the leftmost match `j` at or after
   * `i`, the first token is the whole allowed run behind the scheme, and the
   * search goes on where that run ends.
   */
  lemma {:induction false} FindFromLeftmost(s: string, i: nat, j: nat)
    requires i <= j < |s| && MatchAt(s, j)
    requires forall j' :: i <= j' < j ==> !MatchAt(s, j')
    ensures FindFrom(s, i) == [s[j + 7..RunEnd(s, j + 7)]] + FindFrom(s, RunEnd(s, j + 7))
    decreases j - i
  {
    if i < j {
      FindFromLeftmost(s, i + 1, j);
    }
  }

  /** `SP_LINK.findall(data)` */
  function FindAll(data: string): seq<string>
  {
    FindFrom(data, 0)
  }

  /** Every token found occurs in the text behind the scheme. */
  lemma {:induction false} FoundOccur(s: string, i: nat)
    requires i <= |s|
    ensures forall k :: 0 <= k < |FindFrom(s, i)| ==> Contains(s, Scheme + FindFrom(s, i)[k])
    decreases |s| - i
  {
    if i < |s| {
      if MatchAt(s, i) {
        var e := RunEnd(s, i + 7);
        FoundOccur(s, e);
        assert s[i..e] == Scheme + s[i + 7..e];
        assert OccursAt(s, Scheme + s[i + 7..e], i);
      } else {
        FoundOccur(s, i + 1);
      }
    }
  }

  /** The hosts `scanlinks` keeps. */
  predicate Wanted(t: string)
  {
    Serienjunkies <= t || Rapidshare <= t
  }

  /** The links `scanlinks` returns for the tokens `ts`, in order. */
  function Selected(ts: seq<string>): seq<string>
  {
    if ts == [] then []
    else
      var t := ts[|ts| - 1];
      Selected(ts[..|ts| - 1]) + (if Wanted(t) then [Scheme + t] else [])
  }

  /**
   * A link is selected exactly when it is a wanted token behind the scheme;
   * there are no more links than tokens.
   */
  lemma {:induction false} SelectedMembers(ts: seq<string>)
    ensures forall x :: x in Selected(ts) <==> exists t :: t in ts && Wanted(t) && x == Scheme + t
    ensures |Selected(ts)| <= |ts|
    decreases |ts|
  {
    if ts != [] {
      var init := ts[..|ts| - 1];
      SelectedMembers(init);
      assert ts == init + [ts[|ts| - 1]];
    }
  }

  /** `scanlinks(data)` */
  method ScanLinks(data: string) returns (links: seq<string>)
    ensures links == Selected(FindAll(data))
  {
    var lsf := FindAll(data);
    links := [];
    for k := 0 to |lsf|
      invariant links == Selected(lsf[..k])
    {
      assert lsf[..k + 1][..k] == lsf[..k];
      var t := lsf[k];
      if Serienjunkies <= t {
        links := links + [Scheme + t];
      } else if Rapidshare <= t {
        links := links + [Scheme + t];
      }
    }
    assert lsf[..|lsf|] == lsf;
  }

  /**
   * What `scanlinks` returns: links found in the text, each the scheme and
   * a token on a wanted host, no more than one per eight characters.
   */
  lemma ScanLinksShape(data: string)
    ensures var links := Selected(FindAll(data));
      && 8 * |links| <= |data|
      && forall x :: x in links ==> Contains(data, x) && exists t :: Token(t) && Wanted(t) && x == Scheme + t
  {
    var ts := FindAll(data);
    SelectedMembers(ts);
    FoundOccur(data, 0);
    forall x | x in Selected(ts)
      ensures Contains(data, x) && exists t :: Token(t) && Wanted(t) && x == Scheme + t
    {
      var t :| t in ts && Wanted(t) && x == Scheme + t;
      var k :| 0 <= k < |ts| && ts[k] == t;
      assert Token(ts[k]);
    }
  }

  /**
   * The direct link for the groups: the last path element of `link` moves
   * into a `dl` directory, `os.path.join(head, 'dl', tail)`.
   */
  function Rewrite(srv: string, link: string): string
  {
    var parts := Paths.Split(link);
    Scheme + srv + ".rapidshare.com/files/" + Paths.Join(Paths.Join(parts.0, "dl"), parts.1)
  }

  /** The head as it appears before `dl`: with one '/' behind it unless it is empty or already ends in one. */
  function HeadPart(head: string): string
  {
    if head == "" || head[|head| - 1] == '/' then head else head + "/"
  }

  /** `os.path.join(head, 'dl', tail)` for a tail without a '/'. */
  lemma JoinDl(head: string, tail: string)
    requires '/' !in tail
    ensures Paths.Join(Paths.Join(head, "dl"), tail) == HeadPart(head) + "dl/" + tail
  {
    var h := HeadPart(head);
    var dir := Paths.Join(head, "dl");
    if head == "" || head[|head| - 1] == '/' {
      assert dir == h + "dl";
    } else {
      assert dir == head + "/" + "dl";
      AppendAssociative(head, "/", "dl");
    }
    assert dir == h + "dl";
    if tail != [] {
      assert tail[0] in tail;
    }
    assert Paths.Join(dir, tail) == dir + "/" + tail;
    AppendAssociative(h, "dl", "/");
    assert "dl" + "/" == "dl/";
  }

  /**
   * The rewritten link is `.../files/<head>/dl/<tail>`, the head followed by
   * one '/' (none when it already ends in one), or `.../files/dl/<tail>` when
   * the link has no head; a link without a '/' is all tail.
   */
  lemma RewriteShape(srv: string, link: string)
    ensures Rewrite(srv, link)
      == Scheme + srv + ".rapidshare.com/files/" + HeadPart(Paths.Split(link).0) + "dl/" + Paths.Split(link).1
    ensures '/' !in link ==> Rewrite(srv, link) == Scheme + srv + ".rapidshare.com/files/dl/" + link
  {
    var parts := Paths.Split(link);
    var pre := Scheme + srv + ".rapidshare.com/files/";
    var h := HeadPart(parts.0);
    JoinDl(parts.0, parts.1);
    AppendAssociative(pre, h + "dl/", parts.1);
    AppendAssociative(pre, h, "dl/");
    if '/' !in link {
      assert parts == ("", link);
      assert pre + h == pre;
    }
  }

  /**
   * `_resolve_link` after the page search: no match, no link; a match gives
   * the file's direct link on the matched server, its last path element
   * moved into `dl`.
   */
  function ResolveLink(m: Option<(string, string)>): (r: Option<string>)
    ensures r.Some? <==> m.Some?
    ensures m.Some? ==>
      r.value == Scheme + m.value.0 + ".rapidshare.com/files/" + HeadPart(Paths.Split(m.value.1).0) + "dl/" + Paths.Split(m.value.1).1
    ensures m.Some? && '/' !in m.value.1 ==> r.value == Scheme + m.value.0 + ".rapidshare.com/files/dl/" + m.value.1
  {
    match m
    case None => None
    case Some((srv, link)) =>
      RewriteShape(srv, link);
      Some(Rewrite(srv, link))
  }

  /**
   * A resolver: `_resolve_link` of each link, the page fetch included, is
   * `ResolveLink` of the search of that page.
   */
  type Resolver = string -> Option<string>

  /** The links `resolve_links` returns, in order. */
  function Resolved(links: seq<string>, resolve: Resolver): seq<string>
  {
    if links == [] then []
    else
      var r := resolve(links[|links| - 1]);
      Resolved(links[..|links| - 1], resolve) + (if r.Some? then [r.value] else [])
  }

  /** `resolve_links` keeps the resolution of each link that resolves, and nothing else. */
  lemma {:induction false} ResolvedMembers(links: seq<string>, resolve: Resolver)
    ensures forall x :: x in Resolved(links, resolve) <==>
      exists i :: 0 <= i < |links| && resolve(links[i]) == Some(x)
  {
    forall x
      ensures x in Resolved(links, resolve) <==> exists i :: 0 <= i < |links| && resolve(links[i]) == Some(x)
    {
      ResolvedHas(links, resolve, x);
    }
  }

  /** `ResolvedMembers` for one candidate link `x`. */
  lemma {:induction false} ResolvedHas(links: seq<string>, resolve: Resolver, x: string)
    ensures x in Resolved(links, resolve) <==> exists i :: 0 <= i < |links| && resolve(links[i]) == Some(x)
    decreases |links|
  {
    if links != [] {
      var n := |links| - 1;
      var init := links[..n];
      var r := resolve(links[n]);
      ResolvedHas(init, resolve, x);
      assert Resolved(links, resolve) == Resolved(init, resolve) + (if r.Some? then [r.value] else []);
      if x in Resolved(links, resolve) {
        if x in Resolved(init, resolve) {
          var i :| 0 <= i < |init| && resolve(init[i]) == Some(x);
          assert init[i] == links[i];
        } else {
          assert r == Some(x);
        }
      }
      if exists i :: 0 <= i < |links| && resolve(links[i]) == Some(x) {
        var i :| 0 <= i < |links| && resolve(links[i]) == Some(x);
        if i < n {
          assert init[i] == links[i];
        }
      }
    }
  }

  /** `resolve_links` drops exactly the links that do not resolve. */
  lemma {:induction false} ResolvedCount(links: seq<string>, resolve: Resolver)
    ensures |Resolved(links, resolve)| <= |links|
    ensures |Resolved(links, resolve)| == |links| <==> forall i :: 0 <= i < |links| ==> resolve(links[i]).Some?
    decreases |links|
  {
    if links != [] {
      var n := |links| - 1;
      var init := links[..n];
      ResolvedCount(init, resolve);
      assert forall i :: 0 <= i < n ==> init[i] == links[i];
    }
  }

  /** `resolve_links(links)` */
  method ResolveLinks(links: seq<string>, resolve: Resolver) returns (out: seq<string>)
    ensures out == Resolved(links, resolve)
  {
    out := [];
    for k := 0 to |links|
      invariant out == Resolved(links[..k], resolve)
    {
      assert links[..k + 1][..k] == links[..k];
      var result := resolve(links[k]);
      if result.Some? {
        out := out + [result.value];
      }
    }
    assert links[..|links|] == links;
  }
}

=== FILE: text.dfy ===
/**
 * String helpers shared by the modules: `sep.join(parts)`, the decimal
 * rendering of `"%d"` and the parsing of `int(digits)`.
 */
module Text {

  /** `sep.join(parts)` */
  function Join(parts: seq<string>, sep: string): string
  {
    if |parts| == 0 then ""
    else if |parts| == 1 then parts[0]
    else parts[0] + sep + Join(parts[1..], sep)
  }

  /** Joining a first part with the rest puts exactly one separator between them. */
  lemma JoinCons(first: string, rest: seq<string>, sep: string)
    requires |rest| > 0
    ensures Join([first] + rest, sep) == first + sep + Join(rest, sep)
  {
    assert ([first] + rest)[1..] == rest;
  }

  /** `s.endswith(t)` */
  predicate EndsWith(s: string, t: string)
  {
    |t| <= |s| && s[|s| - |t|..] == t
  }

  /** A joined text ends with its last part. */
  lemma {:induction false} JoinEndsWithLast(parts: seq<string>, sep: string)
    requires |parts| > 0
    ensures EndsWith(Join(parts, sep), parts[|parts| - 1])
  {
    if |parts| > 1 {
      JoinEndsWithLast(parts[1..], sep);
      var a, j := parts[0] + sep, Join(parts[1..], sep);
      assert (a + j)[|a + j| - |parts[|parts| - 1]|..] == j[|j| - |parts[|parts| - 1]|..];
    }
  }

  predicate IsDigit(c: char)
  {
    '0' <= c <= '9'
  }

  predicate AllDigits(s: string)
  {
    forall i :: 0 <= i < |s| ==> IsDigit(s[i])
  }

  function DigitChar(d: nat): (c: char)
    requires d < 10
    ensures IsDigit(c)
  {
    ('0' as int + d) as char
  }

  function DigitValue(c: char): (d: nat)
    requires IsDigit(c)
    ensures d < 10 && DigitChar(d) == c
  {
    c as int - '0' as int
  }

  /** `"%d" % n`: the decimal digits of `n`, without leading zeros. */
  function NatToString(n: nat): (s: string)
    ensures |s| > 0 && AllDigits(s)
    ensures s[0] == '0' ==> n == 0 && s == "0"
    decreases n
  {
    if n < 10 then [DigitChar(n)]
    else NatToString(n / 10) + [DigitChar(n % 10)]
  }

  /** `int(s)` for a string of decimal digits (leading zeros allowed). */
  function DigitsValue(s: string): nat
    requires AllDigits(s)
  {
    if s == [] then 0
    else DigitsValue(s[..|s| - 1]) * 10 + DigitValue(s[|s| - 1])
  }

  function Pow10(k: nat): (r: nat)
    ensures r >= 1
  {
    if k == 0 then 1 else 10 * Pow10(k - 1)
  }

  /** `k` digits hold a number below `10^k`. */
  lemma {:induction false} DigitsValueBound(s: string)
    requires AllDigits(s)
    ensures DigitsValue(s) < Pow10(|s|)
  {
    if s != [] {
      var init := s[..|s| - 1];
      DigitsValueBound(init);
      var v := DigitsValue(init);
      assert v + 1 <= Pow10(|init|);
      assert (v + 1) * 10 <= Pow10(|init|) * 10;
    }
  }

  /** Parsing the rendering of a number gives the number back. */
  lemma {:induction false} DigitsValueOfNatToString(n: nat)
    ensures DigitsValue(NatToString(n)) == n
    decreases n
  {
    var s := NatToString(n);
    if n >= 10 {
      assert s[..|s| - 1] == NatToString(n / 10);
      DigitsValueOfNatToString(n / 10);
    }
  }

  /** The rendering is injective: distinct counts give distinct texts. */
  lemma NatToStringInjective(m: nat, n: nat)
    requires NatToString(m) == NatToString(n)
    ensures m == n
  {
    DigitsValueOfNatToString(m);
    DigitsValueOfNatToString(n);
  }

  /** `s` occurs in `t` starting at `p`. */
  predicate OccursAt(t: string, s: string, p: nat)
  {
    p + |s| <= |t| && t[p..p + |s|] == s
  }

  /** `s in t` for strings */
  predicate Contains(t: string, s: string)
  {
    exists p: nat | p <= |t| :: OccursAt(t, s, p)
  }

  /** `s` with every occurrence of character `c` removed. */
  function Without(s: string, c: char): (r: string)
    ensures c !in r
    ensures forall x :: x != c ==> (x in r <==> x in s)
  {
    if s == [] then []
    else if s[0] == c then Without(s[1..], c)
    else [s[0]] + Without(s[1..], c)
  }

  lemma {:induction false} WithoutAppend(a: string, b: string, c: char)
    ensures Without(a + b, c) == Without(a, c) + Without(b, c)
  {
    if a == [] {
      assert a + b == b;
    } else {
      assert (a + b)[1..] == a[1..] + b;
      WithoutAppend(a[1..], b, c);
    }
  }

  lemma AppendAssociative<T>(a: seq<T>, b: seq<T>, c: seq<T>)
    ensures (a + b) + c == a + (b + c)
  {
  }
}

=== FILE: unrar.dfy ===
/**
 * `UnrarSpoon`: the progress reader for the archive tool. Characters of
 * the tool's error channel are gathered into a line; a carriage return or
 * newline evaluates the line, and a backspace picks up the percentage
 * printed so far.
 *
 * The tool's output is the `stream` field, read one character at a time;
 * an empty stream stands for the end of the output (`''`).
 */
module Unrar {
  import opened Wrappers
  import opened Text

  const Backspace: char := '\U{8}'
  const CrcFailed := "CRC failed in "
  const MissingVolume := "Cannot find volume "
  const CannotOpen := "Cannot open "
  const AllOk := "All OK"
  const NoOpenText := "couldn't open file(s) "
  const MissingText := "missing file(s) "
  const CrcText := "crc error or wrong pwd in "
  const Extracting := "extracting"

  /** `['unrar', '-ierr', 'e', '-o+', '-p' + pwd, filepath]` */
  function Command(filepath: string, pwd: string): seq<string>
  {
    ["unrar", "-ierr", "e", "-o+", "-p" + pwd, filepath]
  }

  /** Reads the archive path and the password back from an unrar argument list. */
  function ParseCommand(argv: seq<string>): Option<(string, string)>
  {
    if |argv| == 6 && argv[..4] == ["unrar", "-ierr", "e", "-o+"] && |argv[4]| >= 2 && argv[4][..2] == "-p"
    then Some((argv[5], argv[4][2..]))
    else None
  }

  /** The argument list carries exactly one archive path and one password. */
  lemma CommandFormat(argv: seq<string>, filepath: string, pwd: string)
    ensures ParseCommand(argv) == Some((filepath, pwd)) <==> argv == Command(filepath, pwd)
  {
    var c := Command(filepath, pwd);
    assert c[..4] == ["unrar", "-ierr", "e", "-o+"];
    assert c[4][..2] == "-p" && c[4][2..] == pwd;
    if ParseCommand(argv) == Some((filepath, pwd)) {
      assert argv[4] == argv[4][..2] + argv[4][2..];
      assert argv == argv[..4] + [argv[4], argv[5]];
    }
  }

  /** The digit run of `s` starting at `p`. */
  function DigitRun(s: string, p: nat): (n: nat)
    requires p <= |s|
    ensures p + n <= |s| && AllDigits(s[p..p + n])
    ensures p + n < |s| ==> !IsDigit(s[p + n])
    decreases |s| - p
  {
    if p < |s| && IsDigit(s[p]) then
      var n := DigitRun(s, p + 1) + 1;
      assert s[p..p + n] == [s[p]] + s[p + 1..p + n];
      n
    else 0
  }

  /** `(\d+)%` matches at `p`: digits, as many as there are, then '%'. */
  predicate PercentAt(s: string, p: nat)
    requires p <= |s|
  {
    var n := DigitRun(s, p);
    n > 0 && p + n < |s| && s[p + n] == '%'
  }

  /** A match of `(\d+)%`: the number and the index just after the '%'. */
  datatype PercentMatch = PercentMatch(value: nat, end: nat)

  /** `UNRAR_PERCENT.search(s[from:])`: the leftmost match at or after `from`. */
  function SearchPercentFrom(s: string, from: nat): (r: Option<PercentMatch>)
    requires from <= |s|
    ensures r.Some? ==> from < r.value.end <= |s| && s[r.value.end - 1] == '%'
    decreases |s| - from
  {
    if from == |s| then None
    else if PercentAt(s, from) then
      var n := DigitRun(s, from);
      Some(PercentMatch(DigitsValue(s[from..from + n]), from + n + 1))
    else SearchPercentFrom(s, from + 1)
  }

  /** A match at `q`: its number is the digit run there and it ends just after the '%'. */
  predicate MatchesAt(s: string, q: nat, m: PercentMatch)
    requires q <= |s|
  {
    PercentAt(s, q) && m.end == q + DigitRun(s, q) + 1 && m.value == DigitsValue(s[q..q + DigitRun(s, q)])
  }

  /**
   * The search finds nothing exactly when no position holds digits followed
   * by '%'; otherwise it returns the leftmost such match.
   */
  lemma {:induction false} SearchPercentLeftmost(s: string, from: nat)
    requires from <= |s|
    ensures SearchPercentFrom(s, from).None? <==> forall q :: from <= q < |s| ==> !PercentAt(s, q)
    ensures SearchPercentFrom(s, from).Some? ==>
      exists q :: from <= q < |s| && MatchesAt(s, q, SearchPercentFrom(s, from).value)
        && forall q' :: from <= q' < q ==> !PercentAt(s, q')
    decreases |s| - from
  {
    if from < |s| && !PercentAt(s, from) {
      SearchPercentLeftmost(s, from + 1);
      if SearchPercentFrom(s, from).Some? {
        var q :| from + 1 <= q < |s| && MatchesAt(s, q, SearchPercentFrom(s, from).value)
          && forall q' :: from + 1 <= q' < q ==> !PercentAt(s, q');
        assert forall q' :: from <= q' < q ==> !PercentAt(s, q');
      }
    } else if from < |s| {
      assert MatchesAt(s, from, SearchPercentFrom(s, from).value);
    }
  }

  function SearchPercent(s: string): Option<PercentMatch>
  {
    SearchPercentFrom(s, 0)
  }

  /** The characters of `[A-Za-z0-9,\/, ,\.,_,\-,\,,#]`. */
  predicate NameChar(c: char)
  {
    'A' <= c <= 'Z' || 'a' <= c <= 'z' || '0' <= c <= '9' || c in ",/ ._-#"
  }

  function NameRun(s: string, p: nat): (n: nat)
    requires p <= |s|
    ensures p + n <= |s|
    ensures forall i :: p <= i < p + n ==> NameChar(s[i])
    ensures p + n < |s| ==> !NameChar(s[p + n])
    decreases |s| - p
  {
    if p < |s| && NameChar(s[p]) then NameRun(s, p + 1) + 1 else 0
  }

  /** `lit` occurs at `q` and a name character follows it. */
  predicate CapAt(lit: string, s: string, q: nat)
  {
    q + |lit| < |s| && s[q..q + |lit|] == lit && NameChar(s[q + |lit|])
  }

  /** No capture starts in `[from, q)`. */
  predicate NoCapBefore(lit: string, s: string, from: nat, q: nat)
  {
    forall q' :: from <= q' < q ==> !CapAt(lit, s, q')
  }

  /**
   * `re.search(lit + "([...]+)", s[from:]).group(1)`: the name after the
   * leftmost occurrence of `lit` that is followed by a name character.
   */
  function SearchCapture(lit: string, s: string, from: nat): (r: Option<string>)
    requires from <= |s|
    ensures r.Some? ==> |r.value| > 0 && forall i :: 0 <= i < |r.value| ==> NameChar(r.value[i])
    decreases |s| - from
  {
    if from + |lit| >= |s| then None
    else if CapAt(lit, s, from) then
      var start := from + |lit|;
      Some(s[start..start + NameRun(s, start)])
    else SearchCapture(lit, s, from + 1)
  }

  /** The search finds nothing exactly when no occurrence of `lit` at or after `from` is followed by a name character. */
  lemma {:induction false} SearchCaptureNone(lit: string, s: string, from: nat)
    requires from <= |s|
    ensures SearchCapture(lit, s, from).None? <==> forall q :: from <= q < |s| ==> !CapAt(lit, s, q)
    decreases |s| - from
  {
    if from + |lit| < |s| && !CapAt(lit, s, from) {
      SearchCaptureNone(lit, s, from + 1);
    }
  }

  /**
   * The search returns the whole name run behind the leftmost occurrence of
   * `lit` followed by a name character.
   */
  lemma {:induction false} SearchCaptureLeftmost(lit: string, s: string, from: nat, q: nat)
    requires from <= q < |s| && CapAt(lit, s, q) && NoCapBefore(lit, s, from, q)
    ensures SearchCapture(lit, s, from) == Some(s[q + |lit|..q + |lit| + NameRun(s, q + |lit|)])
    decreases q - from
  {
    if from < q {
      assert !CapAt(lit, s, from);
      SearchCaptureLeftmost(lit, s, from + 1, q);
    }
  }

  /** The reader's state: the line being gathered, the status entries and the error captures. */
  datatype Progress = Progress(
    line: string,
    percent: nat,
    success: bool,
    message: string,
    crc: Option<string>,
    missing: Option<string>,
    noOpen: Option<string>)

  const Initial := Progress("", 0, false, Extracting, None, None, None)

  /** A new capture replaces the old one; no capture keeps it. */
  function Latest(found: Option<string>, before: Option<string>): Option<string>
  {
    if found.Some? then found else before
  }

  /** The message for the captures: cannot-open over missing-volume over CRC; otherwise `current`. */
  function MessageFor(noOpen: Option<string>, missing: Option<string>, crc: Option<string>, current: string): string
  {
    if noOpen.Some? then NoOpenText + noOpen.value
    else if missing.Some? then MissingText + missing.value
    else if crc.Some? then CrcText + crc.value + " "
    else current
  }

  /** What `_update_line` makes of the current line. */
  function Updated(p: Progress): Progress
  {
    var percent := match SearchPercent(p.line) case Some(m) => m.value case None => p.percent;
    var crc := Latest(SearchCapture(CrcFailed, p.line, 0), p.crc);
    var missing := Latest(SearchCapture(MissingVolume, p.line, 0), p.missing);
    var noOpen := Latest(SearchCapture(CannotOpen, p.line, 0), p.noOpen);
    Progress(p.line, percent, p.success || Contains(p.line, AllOk),
             MessageFor(noOpen, missing, crc, p.message), crc, missing, noOpen)
  }

  /** One character read by `_read_line`; the flag says whether `_read_line` returns with it. */
  function Step(p: Progress, c: char): (Progress, bool)
  {
    if c == '\r' || c == '\n' then (Updated(p).(line := ""), true)
    else if c == Backspace then
      match SearchPercent(p.line)
      case Some(m) => (p.(percent := m.value, line := p.line[m.end..]), true)
      case None => (p, false)
    else (p.(line := p.line + [c]), false)
  }

  /**
   * `_read_line` on an open stream `s`: the new state, the characters left
   * unread and the value returned. The end of the stream returns false.
   */
  function Read(p: Progress, s: seq<char>): (Progress, seq<char>, bool)
    decreases |s|
  {
    if s == [] then (p, [], false)
    else
      var (q, done) := Step(p, s[0]);
      if done then (q, s[1..], true) else Read(q, s[1..])
  }

  /** Nothing is ever lost: success stays set and every capture stays captured. */
  predicate Extends(p: Progress, q: Progress)
  {
    && (p.success ==> q.success)
    && (p.crc.Some? ==> q.crc.Some?)
    && (p.missing.Some? ==> q.missing.Some?)
    && (p.noOpen.Some? ==> q.noOpen.Some?)
  }

  /** The message agrees with the captures, by priority, and is "extracting" without any. */
  predicate Consistent(p: Progress)
  {
    p.message == MessageFor(p.noOpen, p.missing, p.crc, Extracting)
  }

  /** The line never holds a line terminator. */
  predicate Clean(p: Progress)
  {
    '\r' !in p.line && '\n' !in p.line
  }

  /** Reading never clears the success flag or a capture. */
  lemma {:induction false} ReadExtends(p: Progress, s: seq<char>)
    ensures Extends(p, Read(p, s).0)
    decreases |s|
  {
    if s != [] {
      var (q, done) := Step(p, s[0]);
      if !done {
        ReadExtends(q, s[1..]);
      }
    }
  }

  /** The message keeps following the captures by priority. */
  lemma {:induction false} ReadKeepsConsistent(p: Progress, s: seq<char>)
    requires Consistent(p)
    ensures Consistent(Read(p, s).0)
    decreases |s|
  {
    if s != [] {
      var (q, done) := Step(p, s[0]);
      assert Consistent(q);
      if !done {
        ReadKeepsConsistent(q, s[1..]);
      }
    }
  }

  /** The line never gathers a '\r' or '\n'. */
  lemma {:induction false} ReadKeepsClean(p: Progress, s: seq<char>)
    requires Clean(p)
    ensures Clean(Read(p, s).0)
    decreases |s|
  {
    if s != [] {
      var (q, done) := Step(p, s[0]);
      if s[0] == Backspace && SearchPercent(p.line).Some? {
        var m := SearchPercent(p.line).value;
        assert forall x :: x in p.line[m.end..] ==> x in p.line;
      }
      assert Clean(q);
      if !done {
        ReadKeepsClean(q, s[1..]);
      }
    }
  }

  /**
   * A read that returns false met no terminator and no backspace after a
   * percentage: it only appended the characters other than backspaces.
   */
  lemma {:induction false} ReadWithoutEvent(p: Progress, s: seq<char>)
    requires !Read(p, s).2
    ensures Read(p, s).0 == p.(line := p.line + Without(s, Backspace))
    decreases |s|
  {
    if s != [] {
      var (q, done) := Step(p, s[0]);
      ReadWithoutEvent(q, s[1..]);
      if s[0] != Backspace {
        assert p.line + Without(s, Backspace) == (p.line + [s[0]]) + Without(s[1..], Backspace);
      }
    }
  }

  /** The state after reading `t` without an event: the line gained every character of `t` but the backspaces. */
  function Gathered(p: Progress, t: seq<char>): (q: Progress)
    ensures q.percent == p.percent && q.success == p.success && q.message == p.message
    ensures p.line <= q.line && Backspace !in q.line[|p.line|..]
  {
    p.(line := p.line + Without(t, Backspace))
  }

  /**
   * Reading `s` from `p` stops at `s[k]`: the first character at which
   * `_read_line` returns, given the line gathered before it. The new state
   * is that step's, and the rest of the output follows `s[k]`.
   */
  predicate EventAt(p: Progress, s: seq<char>, k: int, q: Progress, rest: seq<char>)
  {
    && 0 <= k < |s|
    && rest == s[k + 1..]
    && Step(Gathered(p, s[..k]), s[k]) == (q, true)
    && forall j :: 0 <= j < k ==> !Step(Gathered(p, s[..j]), s[j]).1
  }

  /** After a character that does not end the read, the line gathered up to `s[j]` is the same seen from the next state. */
  lemma GatheredShift(p: Progress, s: seq<char>, j: int)
    requires s != [] && !Step(p, s[0]).1 && 0 < j <= |s|
    ensures Gathered(p, s[..j]) == Gathered(Step(p, s[0]).0, s[1..][..j - 1])
  {
    assert s[..j] == [s[0]] + s[1..][..j - 1];
    if s[0] != Backspace {
      AppendAssociative(p.line, [s[0]], Without(s[1..][..j - 1], Backspace));
    }
  }

  /** A character that does not end the read moves the stopping point one further. */
  lemma EventAtShift(p: Progress, s: seq<char>, k: int, q: Progress, rest: seq<char>)
    requires s != [] && !Step(p, s[0]).1
    requires EventAt(Step(p, s[0]).0, s[1..], k, q, rest)
    ensures EventAt(p, s, k + 1, q, rest)
  {
    GatheredShift(p, s, k + 1);
    assert s[1..][k + 1..] == s[k + 2..];
    forall j | 0 <= j < k + 1
      ensures !Step(Gathered(p, s[..j]), s[j]).1
    {
      if j == 0 {
        assert s[..0] == [] && Gathered(p, s[..0]) == p;
      } else {
        GatheredShift(p, s, j);
        assert s[1..][j - 1] == s[j];
      }
    }
  }

  /**
   * A read that returns true stopped at its first event: a line terminator,
   * which publishes the gathered line's status and clears the line, or a
   * backspace after a percentage, which records it and cuts the line after
   * the match.
   */
  lemma {:induction false} ReadWithEvent(p: Progress, s: seq<char>)
    requires Read(p, s).2
    ensures exists k :: EventAt(p, s, k, Read(p, s).0, Read(p, s).1)
    decreases |s|
  {
    var (q, done) := Step(p, s[0]);
    if done {
      assert s[..0] == [] && Gathered(p, s[..0]) == p;
      assert EventAt(p, s, 0, Read(p, s).0, Read(p, s).1);
    } else {
      ReadWithEvent(q, s[1..]);
      var k :| EventAt(q, s[1..], k, Read(q, s[1..]).0, Read(q, s[1..]).1);
      EventAtShift(p, s, k, Read(q, s[1..]).0, Read(q, s[1..]).1);
    }
  }

  class UnrarSpoon {
    const argv: seq<string>
    const cwd: string
    var stream: seq<char>
    var streamOpen: bool
    var line: string
    var percent: nat
    var success: bool
    var message: string
    var errCrc: Option<string>
    var errMiss: Option<string>
    var noOpen: Option<string>

    function View(): Progress
      reads this
    {
      Progress(line, percent, success, message, errCrc, errMiss, noOpen)
    }

    /** Prepares the run of unrar on `filepath` with `pwd` in `dstDir`, whose output will be `output`. */
    constructor (filepath: string, dstDir: string, pwd: string, output: seq<char>)
      ensures argv == Command(filepath, pwd) && cwd == dstDir
      ensures View() == Initial
      ensures stream == output && streamOpen
    {
      argv := Command(filepath, pwd);
      cwd := dstDir;
      stream := output;
      streamOpen := true;
      line := "";
      percent := 0;
      success := false;
      message := Extracting;
      errCrc := None;
      errMiss := None;
      noOpen := None;
    }

    /** The next character of the output; at its end, `None` and the stream is closed. */
    method ReadChar() returns (c: Option<char>)
      modifies this`stream, this`streamOpen
      ensures old(stream) == [] ==> c == None && stream == [] && !streamOpen
      ensures old(stream) != [] ==> c == Some(old(stream)[0]) && stream == old(stream)[1..] && streamOpen == old(streamOpen)
    {
      if stream == [] {
        streamOpen := false;
        return None;
      }
      c := Some(stream[0]);
      stream := stream[1..];
    }

    /** Evaluates the current line: percentage, captures, success and message. */
    method UpdateLine()
      modifies this`percent, this`success, this`message, this`errCrc, this`errMiss, this`noOpen
      ensures View() == Updated(old(View()))
    {
      var reError := SearchCapture(CrcFailed, line, 0);
      var reMissing := SearchCapture(MissingVolume, line, 0);
      var rePercent := SearchPercent(line);
      var reNoOpen := SearchCapture(CannotOpen, line, 0);
      if rePercent.Some? {
        percent := rePercent.value.value;
      }
      errCrc := Latest(reError, errCrc);
      errMiss := Latest(reMissing, errMiss);
      noOpen := Latest(reNoOpen, noOpen);
      success := success || Contains(line, AllOk);
      message := MessageFor(noOpen, errMiss, errCrc, message);
    }

    /**
     * Reads until a line ends, a backspace follows a percentage, or the
     * output ends; returns whether a line or percentage was taken.
     */
    method ReadLine() returns (r: bool)
      modifies this
      ensures !old(streamOpen) ==> !r && unchanged(this)
      ensures old(streamOpen) ==> (View(), stream, r) == Read(old(View()), old(stream)) && streamOpen == r
    {
      while streamOpen
        invariant old(streamOpen) ==> Read(View(), stream) == Read(old(View()), old(stream))
        invariant old(streamOpen) && !streamOpen ==> stream == []
        invariant !old(streamOpen) ==> unchanged(this)
        decreases |stream| + (if streamOpen then 1 else 0)
      {
        ghost var before := View();
        var c := ReadChar();
        if c.Some? {
          var ch := c.value;
          if ch == '\r' || ch == '\n' {
            UpdateLine();
            line := "";
            return true;
          } else if ch == Backspace {
            var rePercent := SearchPercent(line);
            if rePercent.Some? {
              percent := rePercent.value.value;
              line := line[rePercent.value.end..];
              return true;
            }
          } else {
            line := line + [ch];
          }
          assert View() == Step(before, ch).0;
        }
      }
      return false;
    }

    /** `_update`: one read, its result dropped. */
    method Update()
      modifies this
      ensures !old(streamOpen) ==> unchanged(this)
      ensures old(streamOpen) ==> (View(), stream) == (Read(old(View()), old(stream)).0, Read(old(View()), old(stream)).1)
    {
      var _ := ReadLine();
    }
  }
}

=== FILE: wrappers.dfy ===
/** The usual optional value, standing for Python's `None` or a value. */
module Wrappers {
  datatype Option<+T> = None | Some(value: T)
}
